=== FILE: README.md ===
# Sankey diagrams: a Dafny model of the integer and string logic

SankeyDiagrams.java is a JavaFX program. It reads a small text file
describing one source quantity split into named branches and draws the
data as a Sankey diagram: a source rectangle, one rectangle per branch,
and curved bands between them, coloured from a fixed palette of 85 colours.
An input window suggests dataset names while the user types, strips a typed
".txt", and opens the diagram when Enter is pressed. After every third
unknown name it shows a warning.

This project models the parts of that program that are integer and string
logic, with the windowing and the floating-point geometry removed:

- `JavaLang` (java_lang.dfy) covers the Java library behaviour the program
  relies on:
  - 32-bit `int` wrap-around;
  - truncating `/` and `%`;
  - `String.split(" ")`, which drops trailing empty strings;
  - `indexOf` and `lastIndexOf`;
  - `endsWith`;
  - `Integer.parseInt`.
- `Dataset` (dataset.dfy) covers `getTitle`, `getValue` and `getOrder`,
  read over the lines of a dataset file. The exceptions and exits that the
  Java code lets escape become `Err` faults.
- `Palette` (palette.dfy) covers the colour choices:
  - the colour-type mapping of `showSankeyDiagrams`;
  - the palette block of `SankeyPane.paint`: `colorsNeed`, `group`, the
    re-roll loop, and the group index `k`;
  - the palette positions that rectangles and bands are painted with.
- `Layout` (layout.dfy) covers the median-branch search and the order in
  which `paint` adds rectangles, divider lines, the source rectangle, bands
  and labels.
- `Shell` (shell.dfy) covers the input window:
  - `getFileNames`;
  - the suggestion tips of the text listener;
  - the ".txt" strip;
  - the Enter handler with `errorTimer` and `errorAlert`, alone and over a
    sequence of presses.

The dataset file is a sequence of lines:

- the title;
- the name of the total;
- one line per branch: the branch name, then a space, then an integer
  magnitude.

The directory listing is a sequence of file names. The file system is a
map from file names to lines. `Math.random` becomes a supplied sequence of
draws, each in 1..84. Java's hash-based collections have no fixed order,
so the known names and colour types are sequences in one possible
iteration order.

The palette constants are the ones in the code:

- The draw is `1 + (int)(Math.random() * 84)`, so it lies in 1..84.
- `group` is `84 / colorsNeed`.
- The palette list has 85 entries. Position 0 is the source colour, and
  branches use positions 1..84.
- The draw is made once, when the pane is built. Each `paint` re-rolls it
  only while it is out of range and then keeps it.

## Model

| member | source | states |
|---|---|---|
| JavaLang.Wrap32 | SankeyDiagrams.java:53 | The result is always an `int`, and a value already in the `int` range is unchanged; this is how `errorTime++` and `sum +=` behave. |
| JavaLang.WrapAdd | SankeyDiagrams.java:400-401 | Wrapping after every addition gives the same `int` as wrapping the exact sum once, so a running `int` total is the true total reduced to 32 bits. |
| JavaLang.JavaDiv | SankeyDiagrams.java:614 | Java's quotient truncates toward zero: the remainder it leaves lies in [0, d) for a non-negative dividend and in (-d, 0] for a negative one. |
| JavaLang.JavaRem | SankeyDiagrams.java:57 | `a == d * (a / d) + a % d`, and the remainder takes the sign of the dividend. |
| JavaLang.Split | SankeyDiagrams.java:224 | `split(" ")`: no piece contains a space. The result is the space-separated pieces with every trailing empty piece removed, so the last piece kept is non-empty. With no trailing space the pieces are exactly the words, and the empty string gives one empty piece. |
| JavaLang.JoinPieces | SankeyDiagrams.java:388-399 | Joining the space-separated pieces of any string with single spaces gives the string back. |
| JavaLang.PiecesJoin | SankeyDiagrams.java:388-399 | Splitting a single-space join of non-empty, space-free words gives the words back. |
| JavaLang.IndexOf | SankeyDiagrams.java:208-209 | `indexOf` is -1 exactly when the pattern occurs nowhere; otherwise it is an occurrence, and no occurrence comes before it. |
| JavaLang.LastIndexOf | SankeyDiagrams.java:37 | `lastIndexOf` is -1 exactly when the pattern occurs nowhere; otherwise it is an occurrence, and no occurrence comes after it. |
| JavaLang.ParseInt | SankeyDiagrams.java:400 | An accepted token is a digit, '-' or '+' followed by digits only. Its value is the digits' value, negated after '-', and lies in the `int` range. "", "-" and "+" are rejected. |
| JavaLang.ParseIntToString | SankeyDiagrams.java:400 | Parsing the decimal form of any `int` gives that `int` back. |
| JavaLang.ParseDigits | SankeyDiagrams.java:400 | A run of digits parses to its value when that value fits an `int`, and is rejected otherwise. |
| JavaLang.ParsePositive | SankeyDiagrams.java:400 | "+" followed by digits parses to the digits' value when that fits an `int`, and is rejected otherwise. |
| JavaLang.ParseNegative | SankeyDiagrams.java:400 | "-" followed by digits parses to the negated value when that fits an `int`, and is rejected otherwise. |
| Dataset.ParseBranch | SankeyDiagrams.java:388-401 | A branch line is accepted exactly when it has a token and `parseInt` accepts the last one. It then gives the name (every token but the last) and that value. A line of spaces only fails on `line[n - 1]`, and a rejected last token fails with that token. |
| Dataset.ParseFormatBranch | SankeyDiagrams.java:388-401 | Writing a branch as "name magnitude" and reading it back gives the same branch. |
| Dataset.BranchLineReconstructs | SankeyDiagrams.java:388-400 | For a line with a space that does not end in a space, the extracted name, a space and the last token rebuild the line. |
| Dataset.ParseRows | SankeyDiagrams.java:387-402 | The branch lines load exactly when each of them parses, and each entry is its line's parse. Otherwise the fault is the one from the first line that fails. |
| Dataset.Collect | SankeyDiagrams.java:387-402 | Stopping at the first failure: the result is every value when there is no failure, and the first failure's fault otherwise. |
| Dataset.RunningTotal | SankeyDiagrams.java:386-401 | The `int` running sum of the magnitudes equals their exact sum wrapped to 32 bits. |
| Dataset.Tally | SankeyDiagrams.java:400 | The map's keys are exactly the branch names, and a name repeated in the file keeps the magnitude of its last line. |
| Dataset.BranchNamesAre | SankeyDiagrams.java:400 | The names the map collects are the names of the branches, with nothing added. |
| Dataset.Title | SankeyDiagrams.java:451-468 | The title is the first line, and reading it fails exactly when the file is empty. |
| Dataset.TallyKeys | SankeyDiagrams.java:387-402 | The branch keys of the map are exactly the names extracted from lines 3 onward. |
| Dataset.Values | SankeyDiagrams.java:373-410 | Fewer than two lines fail with no such line. Otherwise the map exists exactly when every branch line parses. Its keys are the total's name plus the branch names, and the total's name maps to the wrapped sum of the magnitudes. A branch name other than the total's maps to the magnitude of the last line with that name. A branch line that fails to parse gives the first such failure's fault. |
| Dataset.TallyLines | SankeyDiagrams.java:387-402 | For each branch name, the map holds the magnitude of the last line carrying it (`map.put` overwrites). |
| Dataset.Names | SankeyDiagrams.java:427-440 | `getOrder` extracts each row's name. For a row with a space and no trailing space, that name, a space and the magnitude token rebuild the row. |
| Dataset.LastRound | SankeyDiagrams.java:426-442 | Reading rows in rounds of `width` succeeds exactly when the row count is a multiple of `width`, and the last round's rows win. |
| Dataset.OrderRows | SankeyDiagrams.java:413-448 | `getOrder` fills its slots from the last `arrayLength - 1` rows. It succeeds exactly when the branch rows come in whole rounds; with `arrayLength == 1` it succeeds only when there are no branch rows. |
| Dataset.Order | SankeyDiagrams.java:413-448 | The order has `arrayLength` entries: the total's name first, then the names of the last round of rows, under the same success conditions. |
| Dataset.Load | SankeyDiagrams.java:333-338 | A loaded dataset has title line 1, the total's name (line 2) first in the order, and every order entry a key of the map. The total maps to the wrapped branch sum, and a branch line that fails to parse makes the load fail. With at least two lines, the load succeeds exactly when both `getValue` and `getOrder` succeed. On success the map is `getValue`'s map and the order is `getOrder`'s order for that map's size, repeated names included. |
| Dataset.OrderNamesAreKeys | SankeyDiagrams.java:425-441 | Every name `getOrder` writes is a key of the map `getValue` builds. |
| Dataset.DistinctValuesSize | SankeyDiagrams.java:337 | With distinct names, the map has one entry per line after the title, so `mapSize` is one more than the branch count. |
| Dataset.DistinctBranchValue | SankeyDiagrams.java:400 | With distinct names, each branch line's name maps to that line's magnitude. |
| Dataset.LoadDistinct | SankeyDiagrams.java:333-338 | With distinct names and at least one branch, the load succeeds. The order is the total's name followed by the branch names in file order, and each name maps to its line's magnitude. The total is the wrapped sum of the magnitudes, and the exact sum when that fits an `int`. |
| Palette.ColorTypeOf | SankeyDiagrams.java:355-361 | The colour type is -1 exactly for "RANDOM", 0 exactly for "UNIT", and 1 for every other word. |
| Palette.ColorTypeOfModes | SankeyDiagrams.java:355-361 | Each mode's name maps to that mode's code, and an unrecognised word maps to REGULAR's code. |
| Palette.Groups | SankeyDiagrams.java:609 | `group` is the largest number of whole groups of `colorsNeed` positions that fit in 84. |
| Palette.FirstFit | SankeyDiagrams.java:610-612 | The re-roll settles on the first draw within the limit, and every draw before it is over the limit. There is none exactly when every draw is over the limit. |
| Palette.Reroll | SankeyDiagrams.java:610-612 | The loop keeps the current value when it is in range and otherwise takes the first in-range draw. It fails exactly when the value and all the draws exceed the limit. |
| Palette.GroupIndex | SankeyDiagrams.java:613-617 | `k` is 0 for REGULAR. Otherwise the draw lies in group `k`, between `colorsNeed * k + 1` and `colorsNeed * (k + 1)`. |
| Palette.GroupIndexInRange | SankeyDiagrams.java:610-617 | Once the draw is within `group * colorsNeed`, `0 <= k < group`. |
| Palette.Slot | SankeyDiagrams.java:672 | The `Math.abs(colorType)` formula gives the group position for REGULAR and RANDOM, and the draw itself for UNIT. |
| Palette.Assign | SankeyDiagrams.java:668-730 | There is one rectangle position and one band position per branch, and the source uses position 0. |
| Palette.ResolveColors | SankeyDiagrams.java:608-617 | With more than 42 branches no draw is ever accepted. An in-range draw is kept. The draws run out exactly when all of them exceed `group * colorsNeed`. On success the settled draw is the first draw in range, taking the pane's current draw first and then the fresh ones. The group index is below `group`, and the positions follow from the settled draw. |
| Palette.GroupBounds | SankeyDiagrams.java:613-617 | The chosen group's positions lie within 1..84. |
| Palette.SlotsInPalette | SankeyDiagrams.java:672-673 | Every rectangle and band position is a real palette index other than the source's 0. |
| Palette.SlotsDistinct | SankeyDiagrams.java:672-673 | REGULAR and RANDOM give all rectangles and bands pairwise different positions inside the chosen group. REGULAR uses positions 1..2(mapSize-1). |
| Palette.UnitSlots | SankeyDiagrams.java:724 | UNIT paints every rectangle and band with the settled draw. |
| Layout.MedianBranch | SankeyDiagrams.java:637-647 | `midIndex` is the first branch whose `int` running sum reaches `total / 2`, or 0 when none does. When the total is non-negative and is the wrapped sum of the values, such a branch exists. |
| Layout.MedianExists | SankeyDiagrams.java:637-647 | With exact prefix sums, the last branch always reaches half the total, and a branch reaches it exactly when its prefix sum is at least `total / 2`. |
| Layout.RectLoop | SankeyDiagrams.java:668-687 | The rectangle loop emits one rectangle per branch plus divider lines, three shapes per branch less the two missing ends. Everything emitted is a branch rectangle, a top line or a bottom line of a branch in range. |
| Layout.RectLoopHas | SankeyDiagrams.java:668-687 | The loop emits every branch rectangle, the top line of each branch after the first, and the bottom line of each branch before the last. |
| Layout.RectLoopShapes | SankeyDiagrams.java:675-685 | A top line is drawn exactly for branches 2..n and a bottom line exactly for branches 1..n-1. Each branch's rectangle carries its own colour. A single branch gets no lines. |
| Layout.Paint | SankeyDiagrams.java:608-755 | More than 42 branches never settle a colour. Painting fails exactly when every draw exceeds `group * colorsNeed`. On success the settled draw is the first draw in range, the colours follow the settled draw, every branch rectangle and band is coloured from positions 1..84, and the source rectangle uses position 0. `midIndex` is the first branch whose running sum reaches half the total, or 0; it is at least 1 when the total is the wrapped branch sum. The shapes are, in order: the rectangle loop's output, the source rectangle and its text, one band per branch, and the branch texts. |
| Layout.ShapesColored | SankeyDiagrams.java:668-730 | Every rectangle and band the pane adds is painted from palette positions 1..84, never position 0. |
| Layout.SumIsPrefix | SankeyDiagrams.java:401 | The loader's sum of the first `n` branches is the median search's prefix sum. |
| Layout.LoadedBranchValues | SankeyDiagrams.java:640-641 | With distinct names, the values in drawing order are the parsed magnitudes in file order. |
| Layout.TotalIsPrefix | SankeyDiagrams.java:642 | A total that is the wrapped branch sum is the wrapped prefix sum over all branches in drawing order. |
| Layout.LoadedTotalIsBranchSum | SankeyDiagrams.java:403 | A dataset loaded with distinct names has the total that the median search expects. |
| Layout.ExactPrefixSums | SankeyDiagrams.java:640-641 | With non-negative magnitudes whose total fits an `int`, no running sum overflows. |
| Layout.PrefixMonotone | SankeyDiagrams.java:640-641 | With non-negative magnitudes, the running sums never decrease. |
| Shell.KeyOf | SankeyDiagrams.java:36-38 | The key, followed by ".txt", is the file name. |
| Shell.FileKeys | SankeyDiagrams.java:32-42 | A name is known exactly when the directory holds that name followed by ".txt". |
| Shell.CharIndexOf | SankeyDiagrams.java:140 | `indexOf` of a one-character string finds something exactly when the character occurs in the name. |
| Shell.FindTimesCovers | SankeyDiagrams.java:137-144 | `findTimes` reaches the typed length exactly when every typed character occurs in the name. |
| Shell.Matches | SankeyDiagrams.java:146-157 | The suggested names are exactly the known names that contain every typed character, in iteration order. When the names are distinct, as keys of a map are, no suggestion repeats. |
| Shell.ListingIsLines | SankeyDiagrams.java:145-158 | The list the inner loops build is the matching names, each followed by a newline, and empty when nothing is typed. |
| Shell.FileTip | SankeyDiagrams.java:133-161 | The tip is unchanged when no known name matches. Otherwise it lists every match, one per line. |
| Shell.FileTipLoopHits | SankeyDiagrams.java:136-161 | The outer loop resets the tip exactly when some name matches, and leaves it alone otherwise. |
| Shell.ColorTipAsWritten | SankeyDiagrams.java:166-198 | As written: any text that is not two words leaves the tip alone, and "<name> <word>" gives the name, a space and the list of matching colour types repeated once per match. |
| Shell.ColorLoopRepeats | SankeyDiagrams.java:166-198 | As written, the colour tip holds the list of matching colour types once for every matching colour type. |
| Shell.ColorTip | SankeyDiagrams.java:166-198 | As intended, "<name> <word>" gives the name, a space, and each colour type containing every character of the word, once per line. Any other text leaves the tip alone. |
| Shell.ColorTipAgreement | SankeyDiagrams.java:166-198 | The as-written tip repeats the list once per match, so the two tips agree whenever at most one colour type matches. |
| Shell.ColorTipRepeatsExample | SankeyDiagrams.java:166-198 | "Energy R" matches REGULAR and RANDOM, and the as-written tip lists both of them twice. |
| Shell.OnTextChanged | SankeyDiagrams.java:128-203 | As intended, with the corrected colour tip (ColorTip): empty text shows the default message, "<name> <word>" shows the colour suggestions once each, and other text shows the matching file names, or the old tip when nothing matches. |
| Shell.StripTxt | SankeyDiagrams.java:206-214 | The text becomes its prefix before the first ".txt". The result contains no ".txt", and text without ".txt" is left alone. |
| Shell.StripTxtIdempotent | SankeyDiagrams.java:206-214 | Stripping twice is the same as stripping once. |
| Shell.Fail | SankeyDiagrams.java:52-65 | A rejection steps `errorTime` by one with `int` wrap-around (MaxInt goes to MinInt). The warning shows exactly when the new counter is a multiple of 3, for either sign. After the wrap to MinInt there is no warning, because Java's `-2147483648 % 3` is -2. |
| Shell.Count | SankeyDiagrams.java:233-238 | Only a rejection moves the counter or raises a warning. |
| Shell.ClassifyAsWritten | SankeyDiagrams.java:222-238 | As written: crashes exactly on an empty split and rejects exactly an unknown first word. A lone known word opens the whole text. Two words open the name with the colour word, and three or more do nothing. |
| Shell.DispatchAsWritten | SankeyDiagrams.java:219-241 | As written, a lone known name opens the whole typed text, and the press is rejected exactly when the first word is unknown. |
| Shell.Classify | SankeyDiagrams.java:222-238 | As intended, opening the checked word rather than the whole text. It crashes exactly when the split is empty and rejects exactly when the first word is unknown. A known first word alone opens that word, with a second word opens it with that colour word, and with three or more words does nothing. |
| Shell.Dispatch | SankeyDiagrams.java:219-241 | As intended, the action is chosen from the words. Only a rejection steps the counter, wrapped to an `int`. Only a rejection raises the warning, and it does so exactly when the new counter is a multiple of 3, negative counters included. |
| Shell.DispatchAgrees | SankeyDiagrams.java:224-231 | The written and intended handlers agree on every text that does not end in a space. |
| Shell.OpenDiagram | SankeyDiagrams.java:333-361 | A missing "<name>.txt" fails. Otherwise opening succeeds exactly when the file loads. The colour word picks RANDOM or UNIT by name, and REGULAR when the word is absent or unrecognised. |
| Shell.DispatchFindsFile | SankeyDiagrams.java:225-230 | A name accepted against the directory listing always finds its file. |
| Shell.TrailingSpaceExample | SankeyDiagrams.java:224-227 | "Energy " is accepted, yet as written it opens the missing "Energy .txt". The intended handler opens "Energy". |
| Shell.ReplayAt | SankeyDiagrams.java:233-238 | Over several presses, press `p` sees the start counter plus the earlier rejections, wrapped to an `int`. |
| Shell.AlertEveryThird | SankeyDiagrams.java:52-65 | While the counter does not overflow, it counts the rejections so far, and the warning shows exactly on a rejection that brings it to a multiple of 3. |
| Shell.Session | SankeyDiagrams.java:52-65 | After a run of presses, the counter is the start plus the rejections, wrapped to an `int`. Without overflow, the warning has shown once per multiple of 3 passed. |

## Left out

- The JavaFX scene graph is not modelled. This covers stages, scenes, alerts, tooltips, fade transitions, listener wiring and the repaint triggered by `setWidth`/`setHeight`. A press yields an action and the tip yields a string.
- File access (`File`, `Scanner`, `dir.list()`) is replaced by a map from file names to lines and a sequence of directory entries. `System.exit` after "This file does not exist!" becomes the `FileMissing` fault.
- `Math.random()` is replaced by a supplied sequence of draws. With more than 42 branches the re-roll loop never ends; the model reports `None` for every finite sequence of draws.
- All `double` geometry is left out: scale, gap, midHeight, the y positions, one curve per pixel of band height, and text margins. A band is one shape per branch, and labels carry only their text.
- The 85 RGB colour constants are left out. Colours are palette positions 0..84. Distinct positions are not always distinct colours: positions 24 and 28 (`color25` and `color29`) are both `#C1E7CD` (SankeyDiagrams.java:533, 537), and positions 43 and 75 (`color44` and `color76`) are both `#ECCAB7` (SankeyDiagrams.java:552, 584). So with REGULAR colouring and at least 14 branches, the bands of branches 12 and 14 are painted alike. Properties that speak of positions say nothing about how the colours look.
- Hash iteration order is not fixed: known names and colour types are sequences giving one order, and the dataset map is a Dafny `map`.
- Characters are Unicode scalar values, while Java's `length()`, `indexOf` and `split("")` count UTF-16 units. For typed text outside the Basic Multilingual Plane, the suggestion loop (SankeyDiagrams.java:133-143) runs over `t1.length()` UTF-16 units, so its count can differ from FindTimes, which counts characters. The model does not represent UTF-16.
- `Integer.parseInt` accepts Unicode digits from other scripts; the model accepts ASCII digits only.
- Three handlers run the same code: Enter in the text field, a click on the Enter button, and Enter while that button has focus. They are modelled once.
- The Clear button and the caret bookkeeping around `Platform.runLater` are left out.
- Shell.Session, Shell.ReplayAt and Shell.AlertEveryThird: these take the action chosen for each press rather than the typed texts. Shell.Dispatch connects one text to its action.
- Dataset.Load: it does not reproduce the duplicate reading of the file by `getTitle`, `getValue` (twice) and `getOrder`. Each reads the same lines, so one read is modelled.
- Palette.ResolveColors and Layout.Paint require at least one branch (`mapSize >= 2`). With `mapSize == 1`, `84 / colorsNeed` divides by zero and `paint` throws; the model does not represent that exception.
- Layout.MedianBranch: the median height it would compute is a `double` and is left out. Only the index is modelled.
- Dataset.Order: when there are branch rows and `arrayLength` is 1, Java loops forever. The model reports `OrderNeverEnds`. When there are no branch rows, Java leaves the slots null, and the model reports `UnfilledOrder`.

## Findings

| source | as written | input that shows it | evidently intended | confidence | as-written member | corrected member |
|---|---|---|---|---|---|---|
| SankeyDiagrams.java:166-198 | `str` is not reset for each colour type, and `tip.setText(str)` runs inside the outer loop. The list of matching colour types is therefore appended once per matching colour type. | "Energy R" matches REGULAR and RANDOM, and the tip reads "Energy REGULAR\nRANDOM\nREGULAR\nRANDOM\n". | Each matching colour type is listed once: "Energy REGULAR\nRANDOM\n". | high, not executed | Shell.ColorTipRepeatsExample | Shell.ColorTip |
| SankeyDiagrams.java:224-227 | A single-word text passes the known-name check on `type[0]`, but `showSankeyDiagrams(str)` opens the whole text, trailing spaces included. | With "Energy.txt" present, "Energy " is accepted. The handler then opens "Energy .txt", which does not exist, and the program exits. | Open the word that was checked, `type[0]`, i.e. "Energy.txt". | high, not executed | Shell.TrailingSpaceExample | Shell.Dispatch |

=== FILE: dataset.dfy ===
/** The dataset loader of SankeyDiagrams.java (`getTitle`, `getValue`,
    `getOrder`), read over the lines of a dataset file:

      line 1      the diagram title
      line 2      the name of the total (the source rectangle)
      line 3..    `<branch name> <integer magnitude>`, the magnitude being the
                  last space-separated token

    Exceptions the Java code lets escape become `Err` faults. */
module Dataset {
  import opened JavaLang

  datatype Fault =
    | FileMissing             // "This file does not exist!" and System.exit(0)
    | NoSuchLine              // Scanner.nextLine past the last line
    | MissingMagnitude        // a branch line of spaces only: line[n - 1] with n == 0
    | BadMagnitude(token: string)  // Integer.parseInt rejects the last token
    | EmptyOrder              // getOrder writes order[0] of a zero-length array
    | OrderNeverEnds          // getOrder with arrayLength 1 spins on an unread line forever
    | UnfilledOrder           // getOrder leaves slots 1.. of the order array null

  datatype Result<T> = Ok(value: T) | Err(fault: Fault)

  datatype Branch = Branch(name: string, magnitude: int)

  /** A loaded dataset: the title, the map from names to magnitudes (the
      total's name included) and the drawing order, total first. */
  datatype Data = Data(title: string, totals: map<string, int>, order: seq<string>)

  /** The branch name of a line: every space-split token but the last,
      re-joined with single spaces (empty when the line has no token). */
  function NameOf(line: string): string {
    var ts := Split(line);
    if |ts| == 0 then "" else Join(ts[..|ts| - 1])
  }

  /** The last space-split token of a line, the one `parseInt` reads. */
  function LastToken(line: string): string {
    var ts := Split(line);
    if |ts| == 0 then "" else ts[|ts| - 1]
  }

  /** One branch line as `getValue` reads it. */
  function ParseBranch(line: string): (r: Result<Branch>)
    ensures r.Ok? ==> r.value.name == NameOf(line) && InInt32(r.value.magnitude)
    ensures r.Ok? ==> ParseInt(LastToken(line)) == Some(r.value.magnitude)
    ensures Split(line) == [] ==> r == Err(MissingMagnitude)
    ensures Split(line) != [] && ParseInt(LastToken(line)).None? ==> r == Err(BadMagnitude(LastToken(line)))
    ensures r.Ok? <==> Split(line) != [] && ParseInt(LastToken(line)).Some?
  {
    var ts := Split(line);
    if |ts| == 0 then Err(MissingMagnitude)
    else match ParseInt(ts[|ts| - 1])
      case None => Err(BadMagnitude(ts[|ts| - 1]))
      case Some(v) => Ok(Branch(NameOf(line), v))
  }

  /** The line a branch would be written as in a dataset file. */
  function FormatBranch(b: Branch): string {
    b.name + " " + IntToString(b.magnitude)
  }

  lemma IntToStringNoSpace(x: int)
    ensures ' ' !in IntToString(x) && IntToString(x) != ""
    ensures IntToString(x)[|IntToString(x)| - 1] != ' '
  {
    var s := NatToString(Abs(x));
    assert IsDigit(s[|s| - 1]);
    if x < 0 {
      assert IntToString(x) == "-" + s;
      assert forall i :: 0 <= i < |s| ==> IsDigit(s[i]);
    }
  }

  /** Writing a branch out and reading it back gives the same branch, for any
      name (leading, trailing or doubled spaces included) and any `int`. */
  lemma {:induction false} ParseFormatBranch(b: Branch)
    requires InInt32(b.magnitude)
    ensures ParseBranch(FormatBranch(b)) == Ok(b)
  {
    var num := IntToString(b.magnitude);
    IntToStringNoSpace(b.magnitude);
    var ps := Pieces(b.name);
    JoinPieces(b.name);
    var ws := ps + [num];
    assert ws[..|ws| - 1] == ps;
    JoinSnoc(ws);
    assert Join(ws) == FormatBranch(b);
    assert forall i :: 0 <= i < |ws| ==> ' ' !in ws[i] by {
      forall i | 0 <= i < |ws| ensures ' ' !in ws[i] {
        if i < |ps| { assert ws[i] == ps[i]; }
      }
    }
    PiecesJoin(ws);
    var line := FormatBranch(b);
    assert line[|line| - 1] == num[|num| - 1];
    assert Split(line) == ws;
    ParseIntToString(b.magnitude);
  }

  /** A well-formed branch line that does not end in a space is its name, a
      space and its magnitude token, in that order. */
  lemma {:induction false} BranchLineReconstructs(line: string)
    requires ' ' in line && line[|line| - 1] != ' '
    ensures NameOf(line) + " " + LastToken(line) == line
  {
    var ts := Pieces(line);
    SplitParts(line);
    JoinInitLast(line, ts);
  }

  /** For such a line the name and the last token are read off `Pieces`. */
  lemma SplitParts(line: string)
    requires ' ' in line && line[|line| - 1] != ' '
    ensures var ts := Pieces(line);
            |ts| >= 2 && NameOf(line) == Join(ts[..|ts| - 1]) && LastToken(line) == ts[|ts| - 1]
  {
    var ss, ps := Split(line), Pieces(line);
    assert ss == ps;
    TokensOf(line);
    SameInitJoin(ss, ps);
  }

  /** `NameOf` and `LastToken` read the initial tokens and the last one. */
  lemma TokensOf(line: string)
    ensures var ts := Split(line);
            |ts| >= 1 ==> NameOf(line) == Join(ts[..|ts| - 1]) && LastToken(line) == ts[|ts| - 1]
  {
  }

  lemma SameInitJoin(a: seq<string>, b: seq<string>)
    requires a == b && |a| >= 1
    ensures Join(a[..|a| - 1]) == Join(b[..|b| - 1]) && a[|a| - 1] == b[|b| - 1]
  {
  }

  /** Re-joining all tokens but the last, a space and the last token gives
      back the line. */
  lemma JoinInitLast(line: string, ts: seq<string>)
    requires ts == Pieces(line) && |ts| >= 2
    ensures Join(ts[..|ts| - 1]) + " " + ts[|ts| - 1] == line
  {
    JoinPieces(line);
    JoinSnoc(ts);
  }

  /** The branch lines read one after another; the first failure escapes. */
  function ParseRows(rows: seq<string>): (r: Result<seq<Branch>>)
    ensures r.Ok? ==> |r.value| == |rows|
    ensures r.Ok? ==> forall i :: 0 <= i < |rows| ==> ParseBranch(rows[i]) == Ok(r.value[i])
    ensures r.Err? <==> exists i :: 0 <= i < |rows| && ParseBranch(rows[i]).Err?
    ensures r.Err? ==> exists i :: FirstFailure(rows, i, r.fault)
  {
    var rs := Parsed(rows);
    var r := Collect(rs);
    if r.Err? then
      ghost var i :| FirstErr(rs, i, r.fault);
      assert FirstFailure(rows, i, r.fault);
      r
    else r
  }

  /** Line `i` is the first of `rows` that does not parse, failing with `f`. */
  ghost predicate FirstFailure(rows: seq<string>, i: int, f: Fault) {
    && 0 <= i < |rows| && ParseBranch(rows[i]) == Err(f)
    && forall j :: 0 <= j < i ==> ParseBranch(rows[j]).Ok?
  }

  /** Each line read on its own. */
  function Parsed(rows: seq<string>): (rs: seq<Result<Branch>>)
    ensures |rs| == |rows| && forall i :: 0 <= i < |rows| ==> rs[i] == ParseBranch(rows[i])
  {
    seq(|rows|, i requires 0 <= i < |rows| => ParseBranch(rows[i]))
  }

  /** Results taken in order: all their values, or the first failure. */
  function Collect<T>(rs: seq<Result<T>>): (r: Result<seq<T>>)
    ensures r.Ok? ==> |r.value| == |rs| && forall i :: 0 <= i < |rs| ==> rs[i] == Ok(r.value[i])
    ensures r.Err? <==> exists i :: 0 <= i < |rs| && rs[i].Err?
    ensures r.Err? ==> exists i :: FirstErr(rs, i, r.fault)
  {
    if |rs| == 0 then Ok([])
    else match rs[0]
      case Err(f) =>
        assert FirstErr(rs, 0, f);
        Err(f)
      case Ok(b) =>
        match Collect(rs[1..])
        case Err(f) =>
          ghost var i :| FirstErr(rs[1..], i, f);
          FirstErrShift(rs, i, f);
          Err(f)
        case Ok(bs) =>
          assert forall i :: 1 <= i < |rs| ==> rs[i] == rs[1..][i - 1];
          Ok([b] + bs)
  }

  /** Result `i` is the first failure, `f`. */
  ghost predicate FirstErr<T>(rs: seq<Result<T>>, i: int, f: Fault) {
    && 0 <= i < |rs| && rs[i] == Err(f)
    && forall j :: 0 <= j < i ==> rs[j].Ok?
  }

  lemma FirstErrShift<T>(rs: seq<Result<T>>, i: int, f: Fault)
    requires |rs| >= 1 && rs[0].Ok? && FirstErr(rs[1..], i, f)
    ensures FirstErr(rs, i + 1, f)
  {
    forall j | 0 <= j < i + 1 ensures rs[j].Ok? {
      if j > 0 { assert rs[j] == rs[1..][j - 1]; }
    }
  }

  function Sum(bs: seq<Branch>): int {
    if |bs| == 0 then 0 else Sum(bs[..|bs| - 1]) + bs[|bs| - 1].magnitude
  }

  /** `sum += parseInt(...)` on a Java `int`: each addition wraps. */
  function RunningTotal(bs: seq<Branch>): (t: int)
    ensures t == Wrap32(Sum(bs))
  {
    if |bs| == 0 then 0
    else
      var prev := RunningTotal(bs[..|bs| - 1]);
      WrapAdd(Sum(bs[..|bs| - 1]), bs[|bs| - 1].magnitude);
      Wrap32(prev + bs[|bs| - 1].magnitude)
  }

  /** `map.put(name, magnitude)` for each branch in turn: a later line with
      the same name overwrites an earlier one. */
  function Tally(bs: seq<Branch>): (m: map<string, int>)
    ensures m.Keys == BranchNames(bs)
    ensures forall i :: 0 <= i < |bs| && LastWithName(bs, i) ==> m[bs[i].name] == bs[i].magnitude
  {
    if |bs| == 0 then map[]
    else
      var init := bs[..|bs| - 1];
      var last := bs[|bs| - 1];
      var m := Tally(init)[last.name := last.magnitude];
      assert forall i :: 0 <= i < |bs| && LastWithName(bs, i) ==> m[bs[i].name] == bs[i].magnitude by {
        forall i | 0 <= i < |init| && LastWithName(bs, i) ensures m[bs[i].name] == bs[i].magnitude {
          assert init[i] == bs[i] && last.name != bs[i].name;
          assert LastWithName(init, i);
        }
      }
      m
  }

  /** No branch after `bs[i]` has its name. */
  predicate LastWithName(bs: seq<Branch>, i: int)
    requires 0 <= i < |bs|
  {
    forall j :: i < j < |bs| ==> bs[j].name != bs[i].name
  }

  /** The names `map.put` has been called with, one branch at a time. */
  function BranchNames(bs: seq<Branch>): (names: set<string>)
    ensures forall i :: 0 <= i < |bs| ==> bs[i].name in names
  {
    if |bs| == 0 then {}
    else
      var init := bs[..|bs| - 1];
      assert forall i :: 0 <= i < |init| ==> bs[i] == init[i];
      BranchNames(init) + {bs[|bs| - 1].name}
  }

  /** Those names are exactly the names of the branches. */
  lemma {:induction false} BranchNamesAre(bs: seq<Branch>)
    ensures BranchNames(bs) == set i | 0 <= i < |bs| :: bs[i].name
  {
    if |bs| > 0 {
      var init := bs[..|bs| - 1];
      BranchNamesAre(init);
      forall x | x in BranchNames(bs) ensures x in set i | 0 <= i < |bs| :: bs[i].name {
        if x != bs[|bs| - 1].name {
          var i :| 0 <= i < |init| && init[i].name == x;
          assert bs[i].name == x;
        }
      }
    }
  }

  /** `getTitle`: the first line. */
  function Title(lines: seq<string>): (r: Result<string>)
    ensures r.Ok? <==> |lines| >= 1
    ensures r.Ok? ==> r.value == lines[0]
  {
    if |lines| == 0 then Err(NoSuchLine) else Ok(lines[0])
  }

  /** The keys `getValue` puts for the branch lines are their names. */
  lemma TallyKeys(lines: seq<string>)
    requires |lines| >= 2 && ParseRows(lines[2..]).Ok?
    ensures Tally(ParseRows(lines[2..]).value).Keys == set i | 2 <= i < |lines| :: NameOf(lines[i])
  {
    var bs := ParseRows(lines[2..]).value;
    BranchNamesAre(bs);
    KeysAreLineNames(lines, bs);
    LineNamesAreKeys(lines, bs);
  }

  lemma KeysAreLineNames(lines: seq<string>, bs: seq<Branch>)
    requires |lines| >= 2 && ParseRows(lines[2..]) == Ok(bs)
    ensures (set i | 0 <= i < |bs| :: bs[i].name) <= set i | 2 <= i < |lines| :: NameOf(lines[i])
  {
    forall j | 0 <= j < |bs| ensures bs[j].name in set i | 2 <= i < |lines| :: NameOf(lines[i]) {
      RowName(lines, j + 2);
    }
  }

  lemma LineNamesAreKeys(lines: seq<string>, bs: seq<Branch>)
    requires |lines| >= 2 && ParseRows(lines[2..]) == Ok(bs)
    ensures (set i | 2 <= i < |lines| :: NameOf(lines[i])) <= set i | 0 <= i < |bs| :: bs[i].name
  {
    forall i | 2 <= i < |lines| ensures NameOf(lines[i]) in set i | 0 <= i < |bs| :: bs[i].name {
      RowName(lines, i);
    }
  }

  /** A parsed branch line is named after the line. */
  lemma RowName(lines: seq<string>, i: int)
    requires 2 <= i < |lines| && ParseRows(lines[2..]).Ok?
    ensures ParseRows(lines[2..]).value[i - 2].name == NameOf(lines[i])
  {
    assert ParseBranch(lines[2..][i - 2]) == Ok(ParseRows(lines[2..]).value[i - 2]);
  }

  /** `getValue`: every branch under its name, then the total's name (line
      2) under the wrapped sum of all branch magnitudes. */
  function Values(lines: seq<string>): (r: Result<map<string, int>>)
    ensures |lines| < 2 ==> r == Err(NoSuchLine)
    ensures |lines| >= 2 ==> (r.Ok? <==> ParseRows(lines[2..]).Ok?)
    ensures r.Ok? ==> (&& lines[1] in r.value
                       && r.value[lines[1]] == Wrap32(Sum(ParseRows(lines[2..]).value)))
    ensures r.Ok? ==> r.value.Keys == {lines[1]} + set i | 2 <= i < |lines| :: NameOf(lines[i])
    ensures r.Ok? ==> forall i :: 2 <= i < |lines| && NameOf(lines[i]) != lines[1] && LastLineNamed(lines, i) ==>
              r.value[NameOf(lines[i])] == ParseRows(lines[2..]).value[i - 2].magnitude
    ensures |lines| >= 2 && ParseRows(lines[2..]).Err? ==> r == Err(ParseRows(lines[2..]).fault)
  {
    if |lines| < 2 then Err(NoSuchLine)
    else match ParseRows(lines[2..])
      case Err(f) => Err(f)
      case Ok(bs) =>
        TallyKeys(lines);
        TallyLines(lines, bs);
        Ok(Tally(bs)[lines[1] := RunningTotal(bs)])
  }

  /** No line after line `i` carries the same branch name. */
  predicate LastLineNamed(lines: seq<string>, i: int)
    requires 0 <= i < |lines|
  {
    forall j :: i < j < |lines| ==> NameOf(lines[j]) != NameOf(lines[i])
  }

  /** The map `getValue` fills from the branch lines keeps, for each name,
      the magnitude of the last line with that name. */
  lemma TallyLines(lines: seq<string>, bs: seq<Branch>)
    requires |lines| >= 2 && ParseRows(lines[2..]) == Ok(bs)
    ensures forall i :: 2 <= i < |lines| && LastLineNamed(lines, i) ==>
              NameOf(lines[i]) in Tally(bs) && Tally(bs)[NameOf(lines[i])] == bs[i - 2].magnitude
  {
    forall i | 2 <= i < |lines| && LastLineNamed(lines, i)
      ensures NameOf(lines[i]) in Tally(bs) && Tally(bs)[NameOf(lines[i])] == bs[i - 2].magnitude
    {
      RowName(lines, i);
      forall j | i - 2 < j < |bs| ensures bs[j].name != bs[i - 2].name {
        RowName(lines, j + 2);
      }
      assert LastWithName(bs, i - 2);
    }
  }

  /** The names `getOrder` extracts, one per row: for a row with a space
      and no trailing space, the name, a space and the magnitude token
      rebuild the row. */
  function Names(rows: seq<string>): (r: seq<string>)
    ensures |r| == |rows| && forall i :: 0 <= i < |rows| ==> r[i] == NameOf(rows[i])
    ensures forall i :: 0 <= i < |rows| && ' ' in rows[i] && rows[i][|rows[i]| - 1] != ' ' ==>
              r[i] + " " + LastToken(rows[i]) == rows[i]
  {
    forall i | 0 <= i < |rows| && ' ' in rows[i] && rows[i][|rows[i]| - 1] != ' ' {
      BranchLineReconstructs(rows[i]);
    }
    seq(|rows|, i requires 0 <= i < |rows| => NameOf(rows[i]))
  }

  /** The inner `for` of `getOrder`, repeated while lines remain: each round
      reads the next `width` lines into order[1..width]; a round that runs
      out of lines throws. The result is the round read last. */
  function LastRound(rest: seq<string>, width: nat): (r: Result<seq<string>>)
    requires width >= 1 && |rest| >= 1
    ensures r.Ok? <==> |rest| % width == 0
    ensures r.Ok? ==> |rest| >= width && r.value == rest[|rest| - width..]
    ensures r.Err? ==> r.fault == NoSuchLine
    decreases |rest|
  {
    if |rest| < width then Err(NoSuchLine)
    else if |rest| == width then Ok(rest)
    else
      var r := LastRound(rest[width..], width);
      ModSubtract(|rest|, width);
      if r.Ok? then
        DropDrop(rest, width, |rest| - 2 * width);
        r
      else r
  }

  lemma DropDrop(s: seq<string>, a: int, b: int)
    requires 0 <= a <= |s| && 0 <= b <= |s| - a
    ensures s[a..][b..] == s[a + b..]
  {
  }

  lemma ModSubtract(a: nat, w: nat)
    requires 1 <= w <= a
    ensures a % w == (a - w) % w
  {
    var q, s := (a - w) / w, (a - w) % w;
    assert a - w == w * q + s;
    assert a == w * (q + 1) + s;
    ModUnique(a, w, q + 1, s);
  }

  /** The lines whose names `getOrder(fileName, arrayLength)` leaves in
      slots 1..: the last `arrayLength - 1` branch lines, or a failure. */
  function OrderRows(lines: seq<string>, arrayLength: nat): (r: Result<seq<string>>)
    ensures r.Ok? ==> arrayLength >= 1 && |lines| >= 2 + (arrayLength - 1)
    ensures r.Ok? ==> r.value == lines[|lines| - (arrayLength - 1)..]
    ensures |lines| >= 2 && arrayLength == 1 ==> (r.Ok? <==> |lines| == 2)
    ensures |lines| >= 3 && arrayLength >= 2 ==> (r.Ok? <==> (|lines| - 2) % (arrayLength - 1) == 0)
  {
    if |lines| < 2 then Err(NoSuchLine)
    else if arrayLength == 0 then Err(EmptyOrder)
    else
      var rest := lines[2..];
      if |rest| == 0 then
        if arrayLength == 1 then Ok([]) else Err(UnfilledOrder)
      else if arrayLength == 1 then Err(OrderNeverEnds)
      else
        var r := LastRound(rest, arrayLength - 1);
        if r.Ok? then
          DropDrop(lines, 2, |rest| - (arrayLength - 1));
          r
        else r
  }

  /** `getOrder(fileName, arrayLength)`: slot 0 holds line 2, slots 1.. the
      names of the last `arrayLength - 1` branch lines. */
  function Order(lines: seq<string>, arrayLength: nat): (r: Result<seq<string>>)
    ensures r.Ok? ==> arrayLength >= 1 && |lines| >= 2 + (arrayLength - 1)
    ensures r.Ok? ==> |r.value| == arrayLength && r.value[0] == lines[1]
    ensures r.Ok? ==> r.value[1..] == Names(lines[|lines| - (arrayLength - 1)..])
    ensures |lines| >= 2 && arrayLength == 1 ==> (r.Ok? <==> |lines| == 2)
    ensures |lines| >= 3 && arrayLength >= 2 ==> (r.Ok? <==> (|lines| - 2) % (arrayLength - 1) == 0)
  {
    match OrderRows(lines, arrayLength)
    case Err(f) => Err(f)
    case Ok(rows) =>
      ConsTail(lines[1], Names(rows));
      Ok([lines[1]] + Names(rows))
  }

  lemma ConsTail<T>(x: T, s: seq<T>)
    ensures ([x] + s)[1..] == s
  {
  }

  /** `showSankeyDiagrams` reads the title, the values and then the order
      sized by the number of map entries. */
  function Load(lines: seq<string>): (r: Result<Data>)
    ensures r.Ok? ==> |lines| >= 2 && r.value.title == lines[0]
    ensures r.Ok? ==> |r.value.order| == |r.value.totals| >= 1 && r.value.order[0] == lines[1]
    ensures r.Ok? ==> forall i :: 0 <= i < |r.value.order| ==> r.value.order[i] in r.value.totals
    ensures r.Ok? ==> (&& ParseRows(lines[2..]).Ok? && lines[1] in r.value.totals
                       && r.value.totals[lines[1]] == Wrap32(Sum(ParseRows(lines[2..]).value)))
    ensures |lines| >= 2 && ParseRows(lines[2..]).Err? ==> r.Err?
    ensures r.Ok? ==> Values(lines) == Ok(r.value.totals) && Order(lines, |r.value.totals|) == Ok(r.value.order)
    ensures |lines| >= 2 ==> (r.Ok? <==> Values(lines).Ok? && Order(lines, |Values(lines).value|).Ok?)
  {
    match Title(lines)
    case Err(f) => Err(f)
    case Ok(title) =>
      match Values(lines)
      case Err(f) => Err(f)
      case Ok(totals) =>
        match Order(lines, |totals|)
        case Err(f) => Err(f)
        case Ok(order) =>
          OrderNamesAreKeys(lines, totals.Keys, order);
          Ok(Data(title, totals, order))
  }

  /** Whatever rows `getOrder` ends up naming, each is a key `getValue` put. */
  lemma OrderNamesAreKeys(lines: seq<string>, keys: set<string>, order: seq<string>)
    requires |lines| >= 2 && keys == {lines[1]} + set i | 2 <= i < |lines| :: NameOf(lines[i])
    requires Order(lines, |keys|) == Ok(order)
    ensures forall i :: 0 <= i < |order| ==> order[i] in keys
  {
    var w := |keys| - 1;
    assert |order| == w + 1 && |lines| >= 2 + w;
    var tail := lines[|lines| - w..];
    assert order[1..] == Names(tail);
    forall i | 1 <= i < |order| ensures order[i] in keys {
      var k := |lines| - w + (i - 1);
      assert order[i] == Names(tail)[i - 1];
      NameAfterDrop(lines, |lines| - w, i - 1);
      assert NameOf(lines[k]) in set i | 2 <= i < |lines| :: NameOf(lines[i]);
    }
  }

  lemma NameAfterDrop(lines: seq<string>, n: int, j: int)
    requires 0 <= n && 0 <= j < |lines| - n
    ensures NameOf(lines[n..][j]) == NameOf(lines[n + j])
  {
  }

  /** Branch lines whose names are pairwise distinct and differ from the
      total's name. */
  predicate DistinctNames(lines: seq<string>)
    requires |lines| >= 2
  {
    && (forall i :: 2 <= i < |lines| ==> NameOf(lines[i]) != lines[1])
    && (forall i, j :: 2 <= i < j < |lines| ==> NameOf(lines[i]) != NameOf(lines[j]))
  }

  lemma {:induction false} DistinctNamesCard(names: seq<string>)
    requires forall i, j :: 0 <= i < j < |names| ==> names[i] != names[j]
    ensures |set i | 0 <= i < |names| :: names[i]| == |names|
  {
    if |names| > 0 {
      var init := names[..|names| - 1];
      DistinctNamesCard(init);
      var s := set i | 0 <= i < |names| :: names[i];
      var t := set i | 0 <= i < |init| :: init[i];
      assert s == t + {names[|names| - 1]} by {
        forall x | x in s ensures x in t + {names[|names| - 1]} {
          var i :| 0 <= i < |names| && names[i] == x;
          if i < |init| { assert init[i] == x; }
        }
      }
      assert names[|names| - 1] !in t;
    }
  }

  lemma NamesAsSet(lines: seq<string>)
    requires |lines| >= 2
    ensures (set i | 2 <= i < |lines| :: NameOf(lines[i]))
            == set i | 0 <= i < |Names(lines[2..])| :: Names(lines[2..])[i]
  {
    var names := Names(lines[2..]);
    var s := set i | 2 <= i < |lines| :: NameOf(lines[i]);
    forall x | x in s ensures x in set i | 0 <= i < |names| :: names[i] {
      var i :| 2 <= i < |lines| && NameOf(lines[i]) == x;
      assert names[i - 2] == x;
    }
  }

  /** With distinct names `getValue` makes one entry per line after the title. */
  lemma {:induction false} DistinctValuesSize(lines: seq<string>)
    requires |lines| >= 2 && DistinctNames(lines) && ParseRows(lines[2..]).Ok?
    ensures |Values(lines).value| == |lines| - 1
  {
    var s := set i | 2 <= i < |lines| :: NameOf(lines[i]);
    LineNamesCard(lines);
    MapSize(Values(lines).value, lines[1], s);
  }

  /** Distinct branch lines give one name each, none of them the total's. */
  lemma LineNamesCard(lines: seq<string>)
    requires |lines| >= 2 && DistinctNames(lines)
    ensures var s := set i | 2 <= i < |lines| :: NameOf(lines[i]);
            |s| == |lines| - 2 && lines[1] !in s
  {
    var names := Names(lines[2..]);
    NamesAsSet(lines);
    assert forall i, j :: 0 <= i < j < |names| ==> names[i] != names[j] by {
      forall i, j | 0 <= i < j < |names| ensures names[i] != names[j] {
        assert names[i] == NameOf(lines[i + 2]) && names[j] == NameOf(lines[j + 2]);
      }
    }
    DistinctNamesCard(names);
  }

  /** A map keyed by one more name than a set has one more entry. */
  lemma MapSize(m: map<string, int>, x: string, s: set<string>)
    requires m.Keys == {x} + s && x !in s
    ensures |m| == |s| + 1
  {
    assert |m| == |m.Keys|;
  }

  /** With distinct names every branch keeps the magnitude on its own line. */
  lemma {:induction false} DistinctBranchValue(lines: seq<string>, i: int)
    requires |lines| >= 2 && DistinctNames(lines) && ParseRows(lines[2..]).Ok?
    requires 2 <= i < |lines|
    ensures NameOf(lines[i]) in Values(lines).value
    ensures Values(lines).value[NameOf(lines[i])] == ParseRows(lines[2..]).value[i - 2].magnitude
  {
    var bs := ParseRows(lines[2..]).value;
    assert Values(lines).value == Tally(bs)[lines[1] := RunningTotal(bs)];
    assert ParseBranch(lines[2..][i - 2]) == Ok(bs[i - 2]);
    assert bs[i - 2].name == NameOf(lines[i]);
    forall j | i - 2 < j < |bs| ensures bs[j].name != bs[i - 2].name {
      assert ParseBranch(lines[2..][j]) == Ok(bs[j]);
      assert bs[j].name == NameOf(lines[j + 2]);
    }
  }

  /** With distinct branch names, loading succeeds exactly when every branch
      line parses; the order lists the total then every branch in file order,
      each branch keeps its own magnitude and the total maps to the wrapped
      sum of the branch magnitudes (the exact sum when that fits an `int`). */
  lemma {:induction false} LoadDistinct(lines: seq<string>)
    requires |lines| >= 3 && DistinctNames(lines)
    requires ParseRows(lines[2..]).Ok?
    ensures Load(lines).Ok?
    ensures Load(lines).value.order == [lines[1]] + Names(lines[2..])
    ensures forall i :: 2 <= i < |lines| ==>
              Load(lines).value.totals[NameOf(lines[i])] == ParseRows(lines[2..]).value[i - 2].magnitude
    ensures Load(lines).value.totals[lines[1]] == Wrap32(Sum(ParseRows(lines[2..]).value))
    ensures InInt32(Sum(ParseRows(lines[2..]).value)) ==>
              Load(lines).value.totals[lines[1]] == Sum(ParseRows(lines[2..]).value)
  {
    var n := |lines| - 2;
    DistinctValuesSize(lines);
    ModUnique(n, n, 1, 0);
    var order := Order(lines, n + 1);
    assert order.Ok?;
    assert order.value == [order.value[0]] + order.value[1..];
    assert lines[|lines| - n..] == lines[2..];
    forall i | 2 <= i < |lines|
      ensures Load(lines).value.totals[NameOf(lines[i])] == ParseRows(lines[2..]).value[i - 2].magnitude
    {
      DistinctBranchValue(lines, i);
    }
  }
}

=== FILE: java_lang.dfy ===
/** The slice of the Java platform the application leans on, stated over
    unbounded integers and `seq<char>`: 32-bit `int` wrap-around, truncating
    division, `String.split(" ")`, `String.indexOf` and `Integer.parseInt`. */
module JavaLang {

  datatype Option<T> = None | Some(value: T)

  const MinInt: int := -0x8000_0000
  const MaxInt: int := 0x7fff_ffff
  const Modulus: int := 0x1_0000_0000

  predicate InInt32(x: int) {
    MinInt <= x <= MaxInt
  }

  /** Two's-complement wrap-around: the Java `int` reached from `x` by
      whole turns of 2^32. */
  function Wrap32(x: int): (r: int)
    ensures InInt32(r)
    ensures InInt32(x) ==> r == x
    decreases if x > MaxInt then x - MaxInt else if x < MinInt then MinInt - x else 0
  {
    if x > MaxInt then Wrap32(x - Modulus)
    else if x < MinInt then Wrap32(x + Modulus)
    else x
  }

  /** The wrapped value is congruent to `x` modulo 2^32. */
  lemma {:induction false} WrapTurns(x: int)
    ensures (x - Wrap32(x)) % Modulus == 0
    decreases if x > MaxInt then x - MaxInt else if x < MinInt then MinInt - x else 0
  {
    if x > MaxInt {
      WrapTurns(x - Modulus);
      var q := (x - Modulus - Wrap32(x)) / Modulus;
      assert x - Modulus - Wrap32(x) == Modulus * q;
      assert x - Wrap32(x) == Modulus * (q + 1);
    } else if x < MinInt {
      WrapTurns(x + Modulus);
      var q := (x + Modulus - Wrap32(x)) / Modulus;
      assert x + Modulus - Wrap32(x) == Modulus * q;
      assert x - Wrap32(x) == Modulus * (q - 1);
    }
  }

  /** Two Java `int`s congruent modulo 2^32 are the same `int`. */
  lemma WrapCongruent(x: int, y: int)
    requires (x - y) % Modulus == 0
    ensures Wrap32(x) == Wrap32(y)
  {
    var rx, ry := Wrap32(x), Wrap32(y);
    WrapTurns(x);
    WrapTurns(y);
    var q, a, b := MultipleOf(x - y), MultipleOf(x - rx), MultipleOf(y - ry);
    assert rx - ry == Modulus * (q - a + b);
    OnlySmallMultiple(q - a + b);
  }

  /** The quotient of an exact multiple of 2^32. */
  function MultipleOf(n: int): (k: int)
    requires n % Modulus == 0
    ensures n == Modulus * k
  {
    n / Modulus
  }

  /** Two Java `int`s differ by less than 2^32, so only the zero multiple fits. */
  lemma OnlySmallMultiple(k: int)
    requires -Modulus < Modulus * k < Modulus
    ensures k == 0
  {
  }

  /** Adding to a wrapped value wraps to the same `int` as adding exactly:
      a running `int` total equals the wrapped exact total. */
  lemma WrapAdd(a: int, b: int)
    ensures Wrap32(Wrap32(a) + b) == Wrap32(a + b)
  {
    WrapTurns(a);
    var q := (a - Wrap32(a)) / Modulus;
    assert a - Wrap32(a) == Modulus * q;
    assert (Wrap32(a) + b) - (a + b) == -(Modulus * q);
    assert ((Wrap32(a) + b) - (a + b)) % Modulus == 0;
    WrapCongruent(Wrap32(a) + b, a + b);
  }

  function Abs(x: int): nat {
    if x < 0 then -x else x
  }

  /** Java's `/` on `int`: the quotient truncated toward zero. */
  function JavaDiv(a: int, d: int): (q: int)
    requires d > 0
    ensures a >= 0 ==> 0 <= a - d * q < d
    ensures a < 0 ==> -d < a - d * q <= 0
  {
    if a >= 0 then a / d else -((-a) / d)
  }

  /** Java's `%` on `int`: the remainder takes the sign of the dividend. */
  function JavaRem(a: int, d: int): (r: int)
    requires d > 0
    ensures a == d * JavaDiv(a, d) + r
    ensures a >= 0 ==> 0 <= r < d
    ensures a < 0 ==> -d < r <= 0
  {
    a - d * JavaDiv(a, d)
  }

  /** The remainder fixes the quotient: `a == w * q + s` with `0 <= s < w`. */
  lemma ModUnique(a: int, w: int, q: int, s: int)
    requires w > 0 && a == w * q + s && 0 <= s < w
    ensures a % w == s
  {
    var q0, s0 := a / w, a % w;
    var d := q - q0;
    assert w * d == s0 - s by {
      assert w * q - w * q0 == w * (q - q0);
    }
    if d > 0 {
      MulGrows(w, d);
    } else if d < 0 {
      MulGrows(w, -d);
    }
  }

  /** An exact multiple divides to its quotient under Java's `/`. */
  lemma ExactQuotient(a: int, d: int, q: int)
    requires d > 0 && a == d * q
    ensures JavaDiv(a, d) == q
  {
    var q0 := JavaDiv(a, d);
    if q0 > q {
      assert d * q0 - d * q == d * (q0 - q);
      MulGrows(d, q0 - q);
    } else if q0 < q {
      assert d * q - d * q0 == d * (q - q0);
      MulGrows(d, q - q0);
    }
  }

  /** A positive multiple is at least the multiplier. */
  lemma MulGrows(d: int, e: int)
    requires d > 0 && e >= 1
    ensures d * e >= d
  {
    if e > 1 {
      MulGrows(d, e - 1);
      assert d * e == d * (e - 1) + d;
    }
  }

  /** Multiplying by a positive `d` keeps the sign of `e`. */
  lemma MulSign(d: int, e: int)
    requires d > 0
    ensures e >= 0 ==> d * e >= 0
    ensures e <= 0 ==> d * e <= 0
  {
    if e >= 1 {
      MulGrows(d, e);
    } else if e <= -1 {
      MulGrows(d, -e);
      assert d * e == -(d * (-e));
    }
  }

  // ---------------------------------------------------------------------
  // String.split(" ")

  /** The text between consecutive spaces of `s`, empty pieces included. */
  function Pieces(s: string): (r: seq<string>)
    ensures |r| >= 1
    ensures forall i :: 0 <= i < |r| ==> ' ' !in r[i]
    ensures ' ' in s ==> |r| >= 2
  {
    if |s| == 0 then [""]
    else
      var rest := Pieces(s[1..]);
      if s[0] == ' ' then [""] + rest
      else [[s[0]] + rest[0]] + rest[1..]
  }

  /** The words joined with one space between neighbours. */
  function Join(ws: seq<string>): string {
    if |ws| == 0 then ""
    else if |ws| == 1 then ws[0]
    else ws[0] + " " + Join(ws[1..])
  }

  /** Removes every empty string at the end, as `String.split` does. */
  function DropTrailingEmpty(ws: seq<string>): (r: seq<string>)
    ensures r <= ws
    ensures |r| > 0 ==> r[|r| - 1] != ""
    ensures forall i :: |r| <= i < |ws| ==> ws[i] == ""
  {
    if |ws| > 0 && ws[|ws| - 1] == "" then DropTrailingEmpty(ws[..|ws| - 1])
    else ws
  }

  /** `s.split(" ")`: no match returns `s` itself (so `""` gives `[""]`);
      otherwise the pieces around every space, minus trailing empty ones. */
  function Split(s: string): (r: seq<string>)
    ensures forall i :: 0 <= i < |r| ==> ' ' !in r[i]
    ensures s != "" && s[|s| - 1] != ' ' ==> r == Pieces(s)
    ensures s != "" ==> r <= Pieces(s) && (|r| > 0 ==> r[|r| - 1] != "")
    ensures s != "" ==> forall i :: |r| <= i < |Pieces(s)| ==> Pieces(s)[i] == ""
    ensures s == "" ==> r == [""]
  {
    if |s| == 0 then [""] else
    var ps := Pieces(s);
    SplitNoTrailingEmpty(s);
    DropTrailingEmpty(ps)
  }

  /** Text that does not end in a space has a non-empty last piece. */
  lemma SplitNoTrailingEmpty(s: string)
    ensures s != "" && s[|s| - 1] != ' ' ==> Pieces(s)[|Pieces(s)| - 1] != ""
  {
    if |s| > 1 {
      SplitNoTrailingEmpty(s[1..]);
    }
  }

  /** Joining the pieces of `s` with single spaces gives `s` back. */
  lemma {:induction false} JoinPieces(s: string)
    ensures Join(Pieces(s)) == s
  {
    if |s| > 0 {
      var rest := Pieces(s[1..]);
      JoinPieces(s[1..]);
      if s[0] == ' ' {
        assert Pieces(s) == [""] + rest;
        assert Join(Pieces(s)) == "" + " " + Join(rest);
      } else if |rest| == 1 {
        assert Pieces(s) == [[s[0]] + rest[0]];
      } else {
        var ps := Pieces(s);
        assert ps[1..] == rest[1..];
        assert Join(ps) == [s[0]] + rest[0] + " " + Join(rest[1..]);
        assert Join(rest) == rest[0] + " " + Join(rest[1..]);
      }
    }
  }

  /** A space-free word followed by a space and more text splits into that
      word and the pieces of the rest. */
  lemma {:induction false} PiecesAfterWord(w: string, t: string)
    requires ' ' !in w
    ensures Pieces(w + " " + t) == [w] + Pieces(t)
  {
    if |w| == 0 {
      assert (w + " " + t)[1..] == t;
    } else {
      PiecesAfterWord(w[1..], t);
      assert (w + " " + t)[1..] == w[1..] + " " + t;
      assert [w[0]] + w[1..] == w;
    }
  }

  /** Splitting the space-joined words recovers them: `Pieces` inverts `Join`. */
  lemma {:induction false} PiecesJoin(ws: seq<string>)
    requires |ws| >= 1
    requires forall i :: 0 <= i < |ws| ==> ' ' !in ws[i]
    ensures Pieces(Join(ws)) == ws
  {
    if |ws| == 1 {
      PiecesOfWord(ws[0]);
    } else {
      PiecesJoin(ws[1..]);
      PiecesAfterWord(ws[0], Join(ws[1..]));
    }
  }

  lemma {:induction false} PiecesOfWord(w: string)
    requires ' ' !in w
    ensures Pieces(w) == [w]
  {
    if |w| > 0 {
      PiecesOfWord(w[1..]);
      assert [w[0]] + w[1..] == w;
    }
  }

  /** The last word can be split off a join of two or more words. */
  lemma {:induction false} JoinSnoc(ws: seq<string>)
    requires |ws| >= 2
    ensures Join(ws) == Join(ws[..|ws| - 1]) + " " + ws[|ws| - 1]
  {
    if |ws| > 2 {
      JoinSnoc(ws[1..]);
      assert ws[1..][..|ws| - 2] == ws[..|ws| - 1][1..];
    }
  }

  // ---------------------------------------------------------------------
  // String.indexOf / lastIndexOf / endsWith

  predicate OccursAt(s: string, pat: string, i: int) {
    0 <= i && i + |pat| <= |s| && s[i..i + |pat|] == pat
  }

  /** `s.indexOf(pat)` scanning from `from`: the first occurrence at or after
      `from`, or -1. */
  function IndexFrom(s: string, pat: string, from: nat): (r: int)
    ensures r == -1 || (from <= r && OccursAt(s, pat, r))
    ensures r == -1 ==> forall j :: from <= j ==> !OccursAt(s, pat, j)
    ensures r != -1 ==> forall j :: from <= j < r ==> !OccursAt(s, pat, j)
    decreases |s| + 1 - from
  {
    if from + |pat| > |s| then -1
    else if s[from..from + |pat|] == pat then from
    else IndexFrom(s, pat, from + 1)
  }

  /** `s.indexOf(pat)`. */
  function IndexOf(s: string, pat: string): (r: int)
    ensures r == -1 <==> forall j :: !OccursAt(s, pat, j)
    ensures r != -1 ==> OccursAt(s, pat, r) && forall j :: 0 <= j < r ==> !OccursAt(s, pat, j)
  {
    IndexFrom(s, pat, 0)
  }

  /** `s.lastIndexOf(pat)` looking at starts `< upTo`. */
  function LastIndexBelow(s: string, pat: string, upTo: nat): (r: int)
    ensures r == -1 || (r < upTo && OccursAt(s, pat, r))
    ensures r == -1 ==> forall j :: 0 <= j < upTo ==> !OccursAt(s, pat, j)
    ensures r != -1 ==> forall j :: r < j < upTo ==> !OccursAt(s, pat, j)
  {
    if upTo == 0 then -1
    else if OccursAt(s, pat, upTo - 1) then upTo - 1
    else LastIndexBelow(s, pat, upTo - 1)
  }

  /** `s.lastIndexOf(pat)`. */
  function LastIndexOf(s: string, pat: string): (r: int)
    ensures r == -1 <==> forall j :: !OccursAt(s, pat, j)
    ensures r != -1 ==> OccursAt(s, pat, r) && forall j :: r < j ==> !OccursAt(s, pat, j)
  {
    LastIndexBelow(s, pat, |s| + 1)
  }

  predicate EndsWith(s: string, suffix: string) {
    |suffix| <= |s| && s[|s| - |suffix|..] == suffix
  }

  // ---------------------------------------------------------------------
  // Integer.parseInt (decimal, ASCII digits)

  predicate IsDigit(c: char) {
    '0' <= c <= '9'
  }

  predicate AllDigits(s: string) {
    forall i :: 0 <= i < |s| ==> IsDigit(s[i])
  }

  function DigitsValue(s: string): nat
    requires AllDigits(s)
  {
    if |s| == 0 then 0
    else DigitsValue(s[..|s| - 1]) * 10 + (s[|s| - 1] as int - '0' as int)
  }

  /** `Integer.parseInt(s)`: an optional sign then at least one digit, and
      the value must fit an `int`; anything else throws, modelled as `None`. */
  function ParseInt(s: string): (r: Option<int>)
    ensures r.Some? ==> InInt32(r.value)
    ensures s == "" || s == "-" || s == "+" ==> r.None?
    ensures r.Some? ==> forall i :: 1 <= i < |s| ==> IsDigit(s[i])
    ensures r.Some? ==> IsDigit(s[0]) || s[0] == '-' || s[0] == '+'
    ensures r.Some? && IsDigit(s[0]) ==> AllDigits(s) && r.value == DigitsValue(s)
    ensures r.Some? && s[0] == '+' ==> AllDigits(s[1..]) && r.value == DigitsValue(s[1..])
    ensures r.Some? && s[0] == '-' ==> AllDigits(s[1..]) && r.value == -(DigitsValue(s[1..]) as int)
  {
    if |s| == 0 then None
    else
      var body := if s[0] == '-' || s[0] == '+' then s[1..] else s;
      if |body| == 0 || !AllDigits(body) then None
      else
        var v: int := if s[0] == '-' then -(DigitsValue(body) as int) else DigitsValue(body);
        if InInt32(v) then Some(v) else None
  }

  function DigitChar(d: nat): char
    requires d < 10
  {
    ('0' as int + d) as char
  }

  /** Decimal digits of `n` without leading zeros (`Integer.toString`). */
  function NatToString(n: nat): (s: string)
    ensures |s| >= 1 && AllDigits(s)
  {
    if n < 10 then [DigitChar(n)] else NatToString(n / 10) + [DigitChar(n % 10)]
  }

  function IntToString(x: int): string {
    if x < 0 then "-" + NatToString(-x) else NatToString(x)
  }

  lemma {:induction false} DigitsOfNat(n: nat)
    ensures DigitsValue(NatToString(n)) == n
  {
    if n >= 10 {
      DigitsOfNat(n / 10);
      var s := NatToString(n);
      assert s[..|s| - 1] == NatToString(n / 10);
    }
  }

  /** Every Java `int` written in decimal parses back to itself. */
  lemma ParseIntToString(x: int)
    requires InInt32(x)
    ensures ParseInt(IntToString(x)) == Some(x)
  {
    if x < 0 {
      DigitsOfNat(-x);
      ParseNegative(NatToString(-x));
    } else {
      DigitsOfNat(x);
      ParseDigits(NatToString(x));
    }
  }

  lemma ParseDigits(body: string)
    requires |body| >= 1 && AllDigits(body)
    ensures var v := DigitsValue(body); ParseInt(body) == if InInt32(v) then Some(v) else None
  {
    assert IsDigit(body[0]);
  }

  lemma ParsePositive(body: string)
    requires |body| >= 1 && AllDigits(body)
    ensures var v := DigitsValue(body); ParseInt("+" + body) == if InInt32(v) then Some(v) else None
  {
    assert ("+" + body)[1..] == body;
  }

  lemma ParseNegative(body: string)
    requires |body| >= 1 && AllDigits(body)
    ensures var v: int := -(DigitsValue(body) as int); ParseInt("-" + body) == if InInt32(v) then Some(v) else None
  {
    assert ("-" + body)[1..] == body;
  }
}

=== FILE: layout.dfy ===
/** The integer side of `SankeyPane.paint`: the median-branch search that
    anchors the vertical layout, the shapes the branch-rectangle loop emits
    (rectangles and black divider lines), the flow bands, the labels and
    the palette positions each shape is painted with. Pixel geometry is
    left to the floating-point code and is not modelled. */
module Layout {
  import opened JavaLang
  import opened Dataset
  import opened Palette

  /** The exact sum of the first `n` branch magnitudes. */
  function PrefixSum(values: seq<int>, n: nat): int
    requires n <= |values|
  {
    if n == 0 then 0 else PrefixSum(values, n - 1) + values[n - 1]
  }

  /** Branch `n` (1-based) is where the running `int` sum first may reach half
      the total: `sum >= map.get(array[0]) / 2` with Java's truncating `/`. */
  predicate Reaches(values: seq<int>, total: int, n: nat)
    requires 1 <= n <= |values|
  {
    Wrap32(PrefixSum(values, n)) >= JavaDiv(total, 2)
  }

  /** `midIndex` of `paint`: the first branch whose running sum reaches half
      the total, or 0 when none does. `values[i - 1]` is branch `i`'s
      magnitude. */
  method MedianBranch(values: seq<int>, total: int) returns (mid: nat)
    ensures mid <= |values|
    ensures mid >= 1 ==> Reaches(values, total, mid)
    ensures forall i :: 1 <= i <= |values| && (mid == 0 || i < mid) ==> !Reaches(values, total, i)
    ensures |values| >= 1 && total >= 0 && total == Wrap32(PrefixSum(values, |values|)) ==> mid >= 1
  {
    var sum := 0;
    mid := 0;
    var i := 1;
    while i <= |values|
      invariant 1 <= i <= |values| + 1
      invariant sum == Wrap32(PrefixSum(values, i - 1))
      invariant forall j :: 1 <= j < i ==> !Reaches(values, total, j)
    {
      WrapAdd(PrefixSum(values, i - 1), values[i - 1]);
      sum := Wrap32(sum + values[i - 1]);
      if sum >= JavaDiv(total, 2) {
        mid := i;
        return;
      }
      i := i + 1;
    }
    if |values| >= 1 {
      assert !Reaches(values, total, |values|);
    }
  }

  /** When the prefix sums are exact `int`s and the total is the sum of all
      branches, the median branch is the first whose prefix sum is at least
      half the total, and it exists. */
  lemma {:induction false} MedianExists(values: seq<int>, total: int)
    requires |values| >= 1 && total == PrefixSum(values, |values|) && total >= 0
    requires forall n :: 0 <= n <= |values| ==> InInt32(PrefixSum(values, n))
    ensures Reaches(values, total, |values|)
    ensures forall n :: 1 <= n <= |values| ==> (Reaches(values, total, n) <==> PrefixSum(values, n) >= total / 2)
  {
    forall n | 1 <= n <= |values|
      ensures Reaches(values, total, n) <==> PrefixSum(values, n) >= total / 2
    {
      assert Wrap32(PrefixSum(values, n)) == PrefixSum(values, n);
    }
  }

  /** What `paint` adds to the pane, apart from pixel positions. */
  datatype Shape =
    | BranchRect(branch: int, color: int)  // rectangle of branch `branch`
    | TopLine(branch: int)                  // black line along a branch's top edge
    | BottomLine(branch: int)               // black line along a branch's bottom edge
    | SourceRect(color: int)                // the total's rectangle
    | Band(branch: int, color: int)         // the flow band into branch `branch`
    | Label(text: string)

  /** One pass of the branch-rectangle loop: the rectangle, a divider on
      its top unless it is the first, one on its bottom unless it is the last. */
  function RectStep(n: int, rects: seq<int>, i: int): seq<Shape>
    requires 1 <= i <= n == |rects|
  {
    [BranchRect(i, rects[i - 1])]
    + (if i > 1 then [TopLine(i)] else [])
    + (if i < n then [BottomLine(i)] else [])
  }

  /** The branch-rectangle loop from branch `i` to the last branch `n`. */
  function RectLoop(n: int, rects: seq<int>, i: int): (r: seq<Shape>)
    requires 1 <= i <= n + 1 && n == |rects|
    ensures |r| == 3 * (n - i + 1) - (if i == 1 && n >= 1 then 1 else 0) - (if i <= n then 1 else 0)
    ensures forall s :: s in r ==>
              || (s.BranchRect? && i <= s.branch <= n && s.color == rects[s.branch - 1])
              || (s.TopLine? && 2 <= s.branch && i <= s.branch <= n)
              || (s.BottomLine? && i <= s.branch < n)
    decreases n + 1 - i
  {
    if i > n then [] else RectStep(n, rects, i) + RectLoop(n, rects, i + 1)
  }

  /** The loop from branch `i` on emits the rectangle of every branch from
      `i` and the dividers at every inner boundary from `i`. */
  lemma {:induction false} RectLoopHas(n: int, rects: seq<int>, i: int)
    requires 1 <= i <= n + 1 && n == |rects|
    ensures forall j :: i - 1 <= j < n ==> BranchRect(j + 1, rects[j]) in RectLoop(n, rects, i)
    ensures forall b :: 2 <= b && i <= b <= n ==> TopLine(b) in RectLoop(n, rects, i)
    ensures forall b :: i <= b < n ==> BottomLine(b) in RectLoop(n, rects, i)
    decreases n + 1 - i
  {
    if i <= n {
      RectLoopHas(n, rects, i + 1);
      var step, rest := RectStep(n, rects, i), RectLoop(n, rects, i + 1);
      assert RectLoop(n, rects, i) == step + rest;
      assert step[0] == BranchRect(i, rects[i - 1]);
      if i > 1 {
        assert step[1] == TopLine(i);
      }
      if i < n {
        assert step[|step| - 1] == BottomLine(i);
      }
    }
  }

  /** The rectangles of all branches, each in its own colour, with divider
      lines exactly at the inner boundaries: below branch b and above branch
      b + 1 for 1 <= b < n; none at all for a single branch. */
  lemma {:induction false} RectLoopShapes(n: int, rects: seq<int>)
    requires n == |rects| >= 1
    ensures |RectLoop(n, rects, 1)| == 3 * n - 2
    ensures forall b :: TopLine(b) in RectLoop(n, rects, 1) <==> 2 <= b <= n
    ensures forall b :: BottomLine(b) in RectLoop(n, rects, 1) <==> 1 <= b < n
    ensures forall b, c :: BranchRect(b, c) in RectLoop(n, rects, 1) <==> 1 <= b <= n && c == rects[b - 1]
    ensures n == 1 ==> forall s :: s in RectLoop(n, rects, 1) ==> s.BranchRect?
  {
    var r := RectLoop(n, rects, 1);
    RectLoopHas(n, rects, 1);
    forall b ensures TopLine(b) in r <==> 2 <= b <= n {
      if TopLine(b) in r {
        var s := TopLine(b);
        assert s in r;
      }
    }
    forall b ensures BottomLine(b) in r <==> 1 <= b < n {
      if BottomLine(b) in r {
        var s := BottomLine(b);
        assert s in r;
      }
    }
    forall b, c ensures BranchRect(b, c) in r <==> 1 <= b <= n && c == rects[b - 1] {
      if BranchRect(b, c) in r {
        var s := BranchRect(b, c);
        assert s in r;
      }
    }
  }

  /** The flow bands, one per branch in order, each in its band colour. */
  function Bands(bands: seq<int>): (r: seq<Shape>)
    ensures |r| == |bands|
    ensures forall j :: 0 <= j < |bands| ==> r[j] == Band(j + 1, bands[j])
  {
    seq(|bands|, j requires 0 <= j < |bands| => Band(j + 1, bands[j]))
  }

  /** `name + ": " + value`, the text of every label. */
  function LabelText(name: string, value: int): string {
    name + ": " + IntToString(value)
  }

  /** Everything `paint` decides for one pane besides pixels. */
  datatype Plan = Plan(colors: Colors, midIndex: nat, shapes: seq<Shape>)

  /** The magnitudes of the branches in drawing order. */
  function BranchValues(d: Data): (vs: seq<int>)
    requires |d.order| >= 1 && forall i :: 0 <= i < |d.order| ==> d.order[i] in d.totals
    ensures |vs| == |d.order| - 1
    ensures forall j :: 0 <= j < |vs| ==> vs[j] == d.totals[d.order[j + 1]]
  {
    seq(|d.order| - 1, j requires 0 <= j < |d.order| - 1 => d.totals[d.order[j + 1]])
  }

  /** The branch texts `array[i] + ": " + map.get(array[i])`, in drawing order. */
  function BranchLabels(d: Data): (ls: seq<Shape>)
    requires |d.order| >= 1 && forall i :: 0 <= i < |d.order| ==> d.order[i] in d.totals
    ensures |ls| == |d.order| - 1
    ensures forall j :: 0 <= j < |ls| ==> ls[j] == Label(LabelText(d.order[j + 1], d.totals[d.order[j + 1]]))
  {
    seq(|d.order| - 1, j requires 0 <= j < |d.order| - 1 => Label(LabelText(d.order[j + 1], d.totals[d.order[j + 1]])))
  }

  /** `paint` for a loaded dataset: palette, median branch, then the shapes
      in the order they are added to the pane (branch rectangles with their
      dividers, the source rectangle in position 0, its label, the bands,
      the branch labels). `None` when the supplied draws run out. */
  method Paint(d: Data, colorType: int, randomColor: int, draws: seq<int>) returns (p: Option<Plan>)
    requires |d.order| == |d.totals| >= 2
    requires forall i :: 0 <= i < |d.order| ==> d.order[i] in d.totals
    requires -1 <= colorType <= 1
    requires ValidDraw(randomColor) && forall j :: 0 <= j < |draws| ==> ValidDraw(draws[j])
    ensures |d.totals| - 1 > 42 ==> p.None?
    ensures p.None? <==> forall j :: 0 <= j < |draws| + 1 ==>
                           ([randomColor] + draws)[j] > Groups(ColorsNeed(|d.totals|)) * ColorsNeed(|d.totals|)
    ensures p.Some? ==> FirstFit([randomColor] + draws, Groups(ColorsNeed(|d.totals|)) * ColorsNeed(|d.totals|)).Some?
                        && p.value.colors.randomColor
                           == FirstFit([randomColor] + draws, Groups(ColorsNeed(|d.totals|)) * ColorsNeed(|d.totals|)).value.color
    ensures p.Some? ==> p.value.colors == Assign(|d.totals|, colorType, p.value.colors.randomColor)
    ensures p.Some? ==> Colored(p.value.shapes)
    ensures p.Some? ==> SourceRect(0) in p.value.shapes
    ensures p.Some? ==> p.value.midIndex <= |d.totals| - 1
    ensures p.Some? && p.value.midIndex >= 1 ==> Reaches(BranchValues(d), d.totals[d.order[0]], p.value.midIndex)
    ensures p.Some? ==> forall i :: 1 <= i <= |d.totals| - 1 && (p.value.midIndex == 0 || i < p.value.midIndex)
                           ==> !Reaches(BranchValues(d), d.totals[d.order[0]], i)
    ensures p.Some? && d.totals[d.order[0]] >= 0
            && d.totals[d.order[0]] == Wrap32(PrefixSum(BranchValues(d), |d.totals| - 1))
            ==> p.value.midIndex >= 1
    ensures p.Some? ==> p.value.shapes == RectLoop(|d.totals| - 1, p.value.colors.rects, 1)
                                          + [SourceRect(0), Label(LabelText(d.order[0], d.totals[d.order[0]]))]
                                          + Bands(p.value.colors.bands)
                                          + BranchLabels(d)
  {
    var mapSize := |d.totals|;
    var resolved := ResolveColors(mapSize, colorType, randomColor, draws);
    if resolved.None? {
      return None;
    }
    var colors := resolved.value;
    SlotsInPalette(mapSize, colorType, colors.randomColor);
    var values := BranchValues(d);
    var total := d.totals[d.order[0]];
    var mid := MedianBranch(values, total);
    var labels := BranchLabels(d);
    var rectShapes := RectLoop(mapSize - 1, colors.rects, 1);
    var shapes := rectShapes
                  + [SourceRect(colors.source), Label(LabelText(d.order[0], total))]
                  + Bands(colors.bands)
                  + labels;
    ShapesColored(mapSize - 1, colors.rects, colors.source, Label(LabelText(d.order[0], total)), colors.bands, labels);
    p := Some(Plan(colors, mid, shapes));
  }

  /** Every branch rectangle and band is painted from the palette, never
      in the background position 0. */
  predicate Colored(shapes: seq<Shape>) {
    forall s :: s in shapes && (s.BranchRect? || s.Band?) ==> 0 < s.color < PaletteSize
  }

  /** The shapes `paint` adds, in order, are painted from the palette when
      their rectangle and band positions are. */
  lemma ShapesColored(n: int, rects: seq<int>, source: int, title: Shape, bands: seq<int>, labels: seq<Shape>)
    requires n == |rects| >= 1 && 0 <= source && title.Label?
    requires forall j :: 0 <= j < n ==> source < rects[j] < PaletteSize
    requires forall j :: 0 <= j < |bands| ==> source < bands[j] < PaletteSize
    requires forall j :: 0 <= j < |labels| ==> labels[j].Label?
    ensures Colored(RectLoop(n, rects, 1) + [SourceRect(source), title] + Bands(bands) + labels)
  {
    var head, bs := RectLoop(n, rects, 1) + [SourceRect(source), title], Bands(bands);
    forall s | s in head + bs + labels && (s.BranchRect? || s.Band?) ensures 0 < s.color < PaletteSize {
      if s in bs {
        var j :| 0 <= j < |bs| && bs[j] == s;
      }
    }
  }

  /** The sum of the first `n` parsed branches equals the prefix sum of
      their magnitudes. */
  lemma {:induction false} SumIsPrefix(bs: seq<Branch>, values: seq<int>, n: nat)
    requires |values| == |bs| && n <= |bs|
    requires forall j :: 0 <= j < |bs| ==> values[j] == bs[j].magnitude
    ensures Sum(bs[..n]) == PrefixSum(values, n)
  {
    if n > 0 {
      SumIsPrefix(bs, values, n - 1);
      assert bs[..n][..n - 1] == bs[..n - 1];
    }
  }

  /** With distinct names the branch values in drawing order are the
      parsed magnitudes in file order. */
  lemma {:induction false} LoadedBranchValues(lines: seq<string>, d: Data)
    requires |lines| >= 3 && DistinctNames(lines) && ParseRows(lines[2..]).Ok?
    requires Load(lines) == Ok(d)
    ensures |BranchValues(d)| == |ParseRows(lines[2..]).value|
    ensures forall j :: 0 <= j < |BranchValues(d)| ==>
              BranchValues(d)[j] == ParseRows(lines[2..]).value[j].magnitude
  {
    LoadDistinct(lines);
    var bs := ParseRows(lines[2..]).value;
    var values := BranchValues(d);
    forall j | 0 <= j < |values| ensures values[j] == bs[j].magnitude {
      assert d.order[j + 1] == Names(lines[2..])[j] == NameOf(lines[j + 2]);
    }
  }

  /** A dataset whose total is the wrapped sum of some branches, and whose
      drawing order lists those branches' magnitudes, has the total the
      median search expects. */
  lemma {:induction false} TotalIsPrefix(d: Data, bs: seq<Branch>)
    requires |d.order| >= 1 && forall i :: 0 <= i < |d.order| ==> d.order[i] in d.totals
    requires d.totals[d.order[0]] == Wrap32(Sum(bs))
    requires |BranchValues(d)| == |bs|
    requires forall j :: 0 <= j < |bs| ==> BranchValues(d)[j] == bs[j].magnitude
    ensures d.totals[d.order[0]] == Wrap32(PrefixSum(BranchValues(d), |d.order| - 1))
  {
    SumIsPrefix(bs, BranchValues(d), |bs|);
    assert bs[..|bs|] == bs;
  }

  /** A dataset loaded from lines with distinct names meets the median
      search's condition: its total is the wrapped sum of the branch
      magnitudes in drawing order. */
  lemma {:induction false} LoadedTotalIsBranchSum(lines: seq<string>, d: Data)
    requires |lines| >= 3 && DistinctNames(lines) && ParseRows(lines[2..]).Ok?
    requires Load(lines) == Ok(d)
    ensures d.totals[d.order[0]] == Wrap32(PrefixSum(BranchValues(d), |d.order| - 1))
  {
    LoadedBranchValues(lines, d);
    TotalIsPrefix(d, ParseRows(lines[2..]).value);
  }

  /** With non-negative magnitudes whose total fits an `int`, every running
      sum is exact, so the median search compares true prefix sums. */
  lemma {:induction false} ExactPrefixSums(values: seq<int>)
    requires forall j :: 0 <= j < |values| ==> values[j] >= 0
    requires InInt32(PrefixSum(values, |values|))
    ensures forall n :: 0 <= n <= |values| ==> InInt32(PrefixSum(values, n))
  {
    PrefixMonotone(values, |values|);
  }

  /** With non-negative magnitudes the prefix sums grow. */
  lemma {:induction false} PrefixMonotone(values: seq<int>, n: nat)
    requires n <= |values| && forall j :: 0 <= j < |values| ==> values[j] >= 0
    ensures forall m :: 0 <= m <= n ==> 0 <= PrefixSum(values, m) <= PrefixSum(values, n)
  {
    if n > 0 {
      PrefixMonotone(values, n - 1);
    }
  }
}

=== FILE: palette.dfy ===
/** Colour selection of `SankeyPane`: the colour type chosen from the user's
    word, the random palette draw with its re-roll loop, the palette group
    index and the slot formulas that pick a position of the 85-entry
    `colorList` for every branch rectangle and flow band. Positions only:
    the RGB values themselves are not modelled. */
module Palette {
  import opened JavaLang

  /** `colorList` has positions 0..84; position 0 paints the source rectangle. */
  const PaletteSize: int := 85

  /** `1 + (int)(Math.random() * 84)` lies in [1, MaxDraw]. */
  const MaxDraw: int := 84

  /** The colour types the shell knows (`inputColorTypes`). */
  datatype Mode = Regular | Random | Unit

  function ModeName(m: Mode): string {
    match m
    case Regular => "REGULAR"
    case Random => "RANDOM"
    case Unit => "UNIT"
  }

  /** The `int` code `SankeyPane` keeps for a colour type. */
  function ModeCode(m: Mode): int {
    match m
    case Regular => 1
    case Random => -1
    case Unit => 0
  }

  /** `showSankeyDiagrams(filename, colorType)`: `"RANDOM"` and `"UNIT"` get
      their codes; any other word is taken as REGULAR. */
  function ColorTypeOf(word: string): (ct: int)
    ensures -1 <= ct <= 1
    ensures ct == -1 <==> word == ModeName(Random)
    ensures ct == 0 <==> word == ModeName(Unit)
  {
    if word == "RANDOM" then -1
    else if word == "UNIT" then 0
    else 1
  }

  /** The one-argument `showSankeyDiagrams(filename)` builds a REGULAR pane. */
  const DefaultColorType: int := ModeCode(Regular)

  /** Each mode's name selects that mode's code, and every other word
      selects REGULAR's. */
  lemma ColorTypeOfModes(word: string)
    ensures forall m :: ColorTypeOf(ModeName(m)) == ModeCode(m)
    ensures (forall m :: word != ModeName(m)) ==> ColorTypeOf(word) == ModeCode(Regular)
  {
    forall m ensures ColorTypeOf(ModeName(m)) == ModeCode(m) {
      assert ModeName(Regular) != ModeName(Random) && ModeName(Regular) != ModeName(Unit) by {
        assert ModeName(Regular)[1] == 'E' && ModeName(Random)[1] == 'A' && ModeName(Unit)[1] == 'N';
      }
    }
  }

  predicate ValidDraw(d: int) {
    1 <= d <= MaxDraw
  }

  /** Two palette slots (rectangle and band) per branch. */
  function ColorsNeed(mapSize: int): int {
    (mapSize - 1) * 2
  }

  /** How many whole groups of `colorsNeed` slots fit in 84 positions. */
  function Groups(colorsNeed: int): (g: int)
    requires colorsNeed > 0
    ensures g >= 0 && colorsNeed * g <= MaxDraw < colorsNeed * (g + 1)
  {
    JavaDiv(MaxDraw, colorsNeed)
  }

  /** The outcome of the re-roll loop: the settled draw and how many fresh
      draws it took. */
  datatype Roll = Roll(color: int, used: nat)

  /** The first entry of `pool` that is at most `limit`, with its position. */
  function FirstFit(pool: seq<int>, limit: int): (r: Option<Roll>)
    ensures r.Some? ==> r.value.used < |pool| && pool[r.value.used] == r.value.color
    ensures r.Some? ==> r.value.color <= limit && forall j :: 0 <= j < r.value.used ==> pool[j] > limit
    ensures r.None? <==> forall j :: 0 <= j < |pool| ==> pool[j] > limit
  {
    if |pool| == 0 then None
    else if pool[0] <= limit then Some(Roll(pool[0], 0))
    else match FirstFit(pool[1..], limit)
      case None => None
      case Some(rl) => Some(Roll(rl.color, rl.used + 1))
  }

  /** `while (randomColor > group * colorsNeed) randomColor = <draw>;` over a
      finite supply of draws; `None` when the supply runs out first (for a
      Java program, the loop would go on drawing). */
  method Reroll(randomColor: int, draws: seq<int>, limit: int) returns (r: Option<Roll>)
    ensures r == FirstFit([randomColor] + draws, limit)
    ensures r.Some? ==> r.value.color <= limit && r.value.used <= |draws|
    ensures r.None? <==> randomColor > limit && forall j :: 0 <= j < |draws| ==> draws[j] > limit
  {
    var pool := [randomColor] + draws;
    var current := randomColor;
    var i := 0;
    while current > limit
      invariant 0 <= i <= |draws| && current == pool[i]
      invariant forall j :: 0 <= j < i ==> pool[j] > limit
      decreases |draws| - i
    {
      if i == |draws| {
        return None;
      }
      i := i + 1;
      current := draws[i - 1];
    }
    r := Some(Roll(current, i));
  }

  /** `k` of `paint`: the palette group the settled draw falls in, through
      Java's `%` and `/`; REGULAR panes always use group 0. */
  function GroupIndex(randomColor: int, colorsNeed: int, colorType: int): (k: int)
    requires colorsNeed > 0
    ensures colorType == 1 ==> k == 0
    ensures colorType != 1 && randomColor >= 1 ==> colorsNeed * k < randomColor <= colorsNeed * (k + 1)
  {
    var temp := JavaRem(randomColor - 1, colorsNeed);
    var k := JavaDiv(randomColor - 1 - temp, colorsNeed);
    if colorType == 1 then 0
    else
      ExactQuotient(randomColor - 1 - temp, colorsNeed, JavaDiv(randomColor - 1, colorsNeed));
      k
  }

  /** A draw accepted by the re-roll loop lies in one of the whole groups. */
  lemma {:induction false} GroupIndexInRange(randomColor: int, colorsNeed: int, colorType: int)
    requires colorsNeed > 0 && 1 <= randomColor <= Groups(colorsNeed) * colorsNeed
    ensures 0 <= GroupIndex(randomColor, colorsNeed, colorType) < Groups(colorsNeed)
  {
    var k, g := GroupIndex(randomColor, colorsNeed, colorType), Groups(colorsNeed);
    if colorType != 1 {
      WhichGroup(colorsNeed, k, g, randomColor);
    }
  }

  /** A position `r` of group `k` (`need * k < r <= need * (k + 1)`) that is
      at most `need * g` belongs to one of the first `g` groups. */
  lemma WhichGroup(need: int, k: int, g: int, r: int)
    requires need > 0 && 1 <= r <= g * need && need * k < r <= need * (k + 1)
    ensures 0 <= k < g
  {
    MulSign(need, k + 1);
    MulSign(need, k - g);
    assert need * (k - g) == need * k - need * g;
    assert g * need == need * g;
  }

  /** The palette position of one slot: `base * |colorType| - (|colorType| - 1) * randomColor`.
      REGULAR and RANDOM panes use the slot's own position; a UNIT pane uses
      the draw everywhere. */
  function Slot(base: int, colorType: int, randomColor: int): (p: int)
    requires -1 <= colorType <= 1
    ensures colorType != 0 ==> p == base
    ensures colorType == 0 ==> p == randomColor
  {
    base * Abs(colorType) + (-1) * (Abs(colorType) - 1) * randomColor
  }

  /** The colour of branch `i`'s rectangle (paint, both `setStroke` and `setFill`). */
  function RectSlot(i: int, colorsNeed: int, k: int, colorType: int, randomColor: int): int
    requires -1 <= colorType <= 1
  {
    Slot(2 * i - 1 + colorsNeed * k, colorType, randomColor)
  }

  /** The colour of branch `i`'s flow band. */
  function BandSlot(i: int, colorsNeed: int, k: int, colorType: int, randomColor: int): int
    requires -1 <= colorType <= 1
  {
    Slot(2 * i + colorsNeed * k, colorType, randomColor)
  }

  /** The resolved palette of one pane: positions into `colorList`. */
  datatype Colors = Colors(source: int, rects: seq<int>, bands: seq<int>, randomColor: int, group: int)

  /** Every position one pane paints with, for branches 1..mapSize-1. */
  function Assign(mapSize: int, colorType: int, randomColor: int): (c: Colors)
    requires mapSize >= 2 && -1 <= colorType <= 1
    ensures |c.rects| == |c.bands| == mapSize - 1 && c.source == 0
  {
    var need := ColorsNeed(mapSize);
    var k := GroupIndex(randomColor, need, colorType);
    Colors(0,
           seq(mapSize - 1, j requires 0 <= j < mapSize - 1 => RectSlot(j + 1, need, k, colorType, randomColor)),
           seq(mapSize - 1, j requires 0 <= j < mapSize - 1 => BandSlot(j + 1, need, k, colorType, randomColor)),
           randomColor, k)
  }

  /** The palette of `paint`: settle the draw (the pane's current draw first,
      then the fresh ones), pick the group and assign the slots. `None` when
      the supplied draws run out, which is certain when more than 42
      branches leave no whole group. */
  method ResolveColors(mapSize: int, colorType: int, randomColor: int, draws: seq<int>)
    returns (r: Option<Colors>)
    requires mapSize >= 2 && -1 <= colorType <= 1
    requires ValidDraw(randomColor) && forall j :: 0 <= j < |draws| ==> ValidDraw(draws[j])
    ensures mapSize - 1 > 42 ==> r.None?
    ensures r.Some? ==> 1 <= r.value.randomColor <= Groups(ColorsNeed(mapSize)) * ColorsNeed(mapSize)
    ensures r.Some? ==> r.value == Assign(mapSize, colorType, r.value.randomColor)
    ensures r.Some? ==> 0 <= r.value.group < Groups(ColorsNeed(mapSize))
    ensures randomColor <= Groups(ColorsNeed(mapSize)) * ColorsNeed(mapSize)
            ==> r == Some(Assign(mapSize, colorType, randomColor))
    ensures r.None? <==> forall j :: 0 <= j < |draws| + 1 ==>
                           ([randomColor] + draws)[j] > Groups(ColorsNeed(mapSize)) * ColorsNeed(mapSize)
    ensures r.Some? ==> FirstFit([randomColor] + draws, Groups(ColorsNeed(mapSize)) * ColorsNeed(mapSize)).Some?
                        && r.value.randomColor
                           == FirstFit([randomColor] + draws, Groups(ColorsNeed(mapSize)) * ColorsNeed(mapSize)).value.color
  {
    var need := ColorsNeed(mapSize);
    var group := Groups(need);
    if mapSize - 1 > 42 {
      assert group == 0 by {
        if group >= 1 { MulGrows(need, group); }
      }
    }
    var roll := Reroll(randomColor, draws, group * need);
    if roll.None? {
      return None;
    }
    var rc := roll.value.color;
    assert ValidDraw(rc) by {
      assert rc == ([randomColor] + draws)[roll.value.used];
    }
    GroupIndexInRange(rc, need, colorType);
    r := Some(Assign(mapSize, colorType, rc));
  }

  /** With the settled draw in range, the chosen group's positions
      `need * k + 1 .. need * (k + 1)` lie inside 1..84. */
  lemma {:induction false} GroupBounds(mapSize: int, colorType: int, randomColor: int)
    requires mapSize >= 2 && -1 <= colorType <= 1
    requires 1 <= randomColor <= Groups(ColorsNeed(mapSize)) * ColorsNeed(mapSize)
    ensures var need := ColorsNeed(mapSize);
            var k := GroupIndex(randomColor, need, colorType);
            0 <= need * k && need * k + need <= MaxDraw
  {
    var need, g := ColorsNeed(mapSize), Groups(ColorsNeed(mapSize));
    var k := GroupIndex(randomColor, need, colorType);
    GroupIndexInRange(randomColor, need, colorType);
    GroupFits(need, k, g);
  }

  /** Group `k` of `g` whole groups of `need` positions ends inside 1..84. */
  lemma GroupFits(need: int, k: int, g: int)
    requires need > 0 && 0 <= k < g && need * g <= MaxDraw
    ensures 0 <= need * k && need * k + need <= MaxDraw
  {
    MulSign(need, k);
    MulSign(need, g - k - 1);
    assert need * (g - k - 1) == need * g - need * k - need;
  }

  /** Every position a pane paints a branch with is a real `colorList`
      position other than the source's 0. */
  lemma {:induction false} SlotsInPalette(mapSize: int, colorType: int, randomColor: int)
    requires mapSize >= 2 && -1 <= colorType <= 1
    requires 1 <= randomColor <= Groups(ColorsNeed(mapSize)) * ColorsNeed(mapSize)
    ensures var c := Assign(mapSize, colorType, randomColor);
            forall j :: 0 <= j < mapSize - 1 ==>
              c.source < c.rects[j] < PaletteSize && c.source < c.bands[j] < PaletteSize
  {
    var c := Assign(mapSize, colorType, randomColor);
    GroupBounds(mapSize, colorType, randomColor);
    var need := ColorsNeed(mapSize);
    var base := need * c.group;
    assert 0 <= base && base + need <= MaxDraw;
    forall j | 0 <= j < mapSize - 1
      ensures c.source < c.rects[j] < PaletteSize && c.source < c.bands[j] < PaletteSize
    {
      if colorType != 0 {
        assert c.rects[j] == 2 * j + 1 + base;
        assert c.bands[j] == 2 * j + 2 + base;
      }
    }
  }

  /** REGULAR and RANDOM panes give the 2(mapSize-1) rectangles and bands
      pairwise different positions, all inside the chosen group; REGULAR's
      group is the first, 1..2(mapSize-1). */
  lemma {:induction false} SlotsDistinct(mapSize: int, colorType: int, randomColor: int)
    requires mapSize >= 2 && colorType in {-1, 1}
    ensures var c := Assign(mapSize, colorType, randomColor);
            var need := ColorsNeed(mapSize);
      && (forall i, j :: 0 <= i < mapSize - 1 && 0 <= j < mapSize - 1 ==> c.rects[i] != c.bands[j])
      && (forall i, j :: 0 <= i < j < mapSize - 1 ==> c.rects[i] != c.rects[j] && c.bands[i] != c.bands[j])
      && (forall j :: 0 <= j < mapSize - 1 ==>
            need * c.group < c.rects[j] < c.bands[j] <= need * c.group + need)
      && (colorType == 1 ==> forall j :: 0 <= j < mapSize - 1 ==> c.rects[j] == 2 * j + 1 && c.bands[j] == 2 * j + 2)
  {
    var c := Assign(mapSize, colorType, randomColor);
    var need := ColorsNeed(mapSize);
    var base := need * c.group;
    assert forall j :: 0 <= j < mapSize - 1 ==> c.rects[j] == 2 * j + 1 + base && c.bands[j] == 2 * j + 2 + base;
    forall j | 0 <= j < mapSize - 1
      ensures need * c.group < c.rects[j] < c.bands[j] <= need * c.group + need
    {
    }
  }

  /** A UNIT pane paints every rectangle and band with the settled draw. */
  lemma {:induction false} UnitSlots(mapSize: int, randomColor: int)
    requires mapSize >= 2
    ensures var c := Assign(mapSize, 0, randomColor);
            forall j :: 0 <= j < mapSize - 1 ==> c.rects[j] == randomColor == c.bands[j]
  {
    var c := Assign(mapSize, 0, randomColor);
    assert forall j :: 0 <= j < mapSize - 1 ==> c.rects[j] == Slot(2 * (j + 1) - 1 + ColorsNeed(mapSize) * c.group, 0, randomColor);
  }
}

=== FILE: shell.dfy ===
/** The input window of SankeyDiagrams.java (`start` and the helpers it
    calls): the dataset names found in the working directory, the
    suggestion tip that follows the typed text, the automatic removal of
    ".txt", and what a press of Enter does with the text.

    The Java collections are hash-based, so their iteration order is not
    fixed by the program: `known` and `modes` below are sequences giving
    one such order, each name once. */
module Shell {
  import opened JavaLang
  import opened Dataset
  import opened Palette

  const Suffix: string := ".txt"
  const DefaultTip: string := "Please input correct filename!!!"

  /** The colour-type names `inputColorTypes` puts in the set. */
  const ColorTypes: seq<string> := [ModeName(Regular), ModeName(Random), ModeName(Unit)]

  // ---------------------------------------------------------------------
  // getFileNames

  /** The key a ".txt" file contributes: its name before the last ".txt". */
  function KeyOf(fileName: string): (key: string)
    requires EndsWith(fileName, Suffix)
    ensures key + Suffix == fileName
  {
    var start := |fileName| - |Suffix|;
    assert OccursAt(fileName, Suffix, start);
    var i := LastIndexOf(fileName, Suffix);
    assert i == start;
    fileName[..i]
  }

  /** The dataset names of a directory listing: a name is known exactly
      when the listing holds that name followed by ".txt". */
  function FileKeys(listing: seq<string>): (keys: set<string>)
    ensures forall k :: k in keys <==> k + Suffix in listing
  {
    var keys := set f | f in listing && EndsWith(f, Suffix) :: KeyOf(f);
    assert forall k :: k + Suffix in listing ==> k in keys by {
      forall k | k + Suffix in listing ensures k in keys {
        var f := k + Suffix;
        assert EndsWith(f, Suffix);
        assert KeyOf(f) == f[..|k|] == k;
      }
    }
    keys
  }

  // ---------------------------------------------------------------------
  // Matching typed characters against a name

  /** `x.indexOf(keyword) != -1` for a one-character keyword is a plain
      membership test. */
  lemma CharIndexOf(name: string, c: char)
    ensures IndexOf(name, [c]) != -1 <==> c in name
  {
    if c in name {
      var j :| 0 <= j < |name| && name[j] == c;
      assert OccursAt(name, [c], j);
    }
    if IndexOf(name, [c]) != -1 {
      var j := IndexOf(name, [c]);
      assert name[j..j + 1] == [c];
      assert name[j] == c;
    }
  }

  /** `findTimes` after the scan of `t1.split("")`: how many of the typed
      characters `indexOf` finds somewhere in the name. */
  function FindTimes(typed: string, name: string): (n: nat)
    ensures n <= |typed|
  {
    if |typed| == 0 then 0
    else FindTimes(typed[..|typed| - 1], name)
         + (if IndexOf(name, [typed[|typed| - 1]]) != -1 then 1 else 0)
  }

  /** Every typed character occurs in the name. */
  predicate Covers(typed: string, name: string) {
    forall i :: 0 <= i < |typed| ==> typed[i] in name
  }

  /** The count reaches the number of typed characters exactly when every
      one of them occurs in the name. */
  lemma {:induction false} FindTimesCovers(typed: string, name: string)
    ensures FindTimes(typed, name) == |typed| <==> Covers(typed, name)
  {
    if |typed| > 0 {
      var init := typed[..|typed| - 1];
      var last := typed[|typed| - 1];
      FindTimesCovers(init, name);
      CharIndexOf(name, last);
      assert forall i :: 0 <= i < |init| ==> init[i] == typed[i];
      if Covers(typed, name) {
        assert Covers(init, name);
      }
      if FindTimes(typed, name) == |typed| {
        assert FindTimes(init, name) == |init| && last in name;
        forall i | 0 <= i < |typed| ensures typed[i] in name {
          if i < |init| {
            assert init[i] in name;
          }
        }
      }
    }
  }

  /** The inner loops' list: each name the typed characters all occur in,
      followed by a newline, in iteration order. The name is appended when
      the count reaches the number of typed characters after a hit, so
      nothing is listed when nothing is typed. */
  function Listing(typed: string, names: seq<string>): string
    decreases |names|
  {
    if |names| == 0 then ""
    else
      (if |typed| >= 1 && FindTimes(typed, names[0]) == |typed| then names[0] + "\n" else "")
      + Listing(typed, names[1..])
  }

  /** Reference definition: the names the typed text covers, in order. */
  function Matches(typed: string, names: seq<string>): (ms: seq<string>)
    ensures forall y :: y in ms <==> y in names && Covers(typed, y)
    ensures |ms| <= |names|
    ensures Distinct(names) ==> Distinct(ms)
  {
    if |names| == 0 then []
    else (if Covers(typed, names[0]) then [names[0]] else []) + Matches(typed, names[1..])
  }

  /** No name occurs twice, as in the key set of a map or a `HashSet`. */
  predicate Distinct(names: seq<string>) {
    forall i, j :: 0 <= i < j < |names| ==> names[i] != names[j]
  }

  /** Reference definition: the lines of a tip, one per name. */
  function Lines(ws: seq<string>): string {
    if |ws| == 0 then "" else ws[0] + "\n" + Lines(ws[1..])
  }

  /** The list built by the loops is exactly the covered names, one per
      line, when something is typed, and empty otherwise. */
  lemma {:induction false} ListingIsLines(typed: string, names: seq<string>)
    ensures |typed| >= 1 ==> Listing(typed, names) == Lines(Matches(typed, names))
    ensures |typed| == 0 ==> Listing(typed, names) == ""
    decreases |names|
  {
    if |names| > 0 {
      ListingIsLines(typed, names[1..]);
      FindTimesCovers(typed, names[0]);
      if |typed| >= 1 {
        var head := if Covers(typed, names[0]) then [names[0]] else [];
        assert Matches(typed, names) == head + Matches(typed, names[1..]);
        LinesAppend(head, Matches(typed, names[1..]));
      }
    }
  }

  lemma {:induction false} LinesAppend(a: seq<string>, b: seq<string>)
    ensures Lines(a + b) == Lines(a) + Lines(b)
    decreases |a|
  {
    if |a| > 0 {
      LinesAppend(a[1..], b);
      assert (a + b)[0] == a[0] && (a + b)[1..] == a[1..] + b;
    } else {
      assert a + b == b;
    }
  }

  // ---------------------------------------------------------------------
  // The text-change listener

  /** The first block of the listener: for every known name the typed text
      covers, the tip is set to the list of covered names. */
  function FileTipLoop(typed: string, rest: seq<string>, known: seq<string>, tip: string): string
    decreases |rest|
  {
    if |rest| == 0 then tip
    else
      FileTipLoop(typed, rest[1..], known,
                  if FindTimes(typed, rest[0]) == |typed| then Listing(typed, known) else tip)
  }

  /** The tip after the file-name block: left as it was when the typed
      text covers no known name, the covered names one per line otherwise
      (empty when nothing is typed). */
  function FileTip(typed: string, known: seq<string>, tip: string): (r: string)
    ensures (forall x :: x in known ==> !Covers(typed, x)) ==> r == tip
    ensures ((exists x :: x in known && Covers(typed, x)) && |typed| >= 1)
              ==> r == Lines(Matches(typed, known))
    ensures (exists x :: x in known && Covers(typed, x)) && |typed| == 0 ==> r == ""
  {
    FileTipLoopHits(typed, known, known, tip);
    ListingIsLines(typed, known);
    FileTipLoop(typed, known, known, tip)
  }

  lemma {:induction false} FileTipLoopHits(typed: string, rest: seq<string>, known: seq<string>, tip: string)
    ensures (forall x :: x in rest ==> !Covers(typed, x)) ==> FileTipLoop(typed, rest, known, tip) == tip
    ensures (exists x :: x in rest && Covers(typed, x)) ==> FileTipLoop(typed, rest, known, tip) == Listing(typed, known)
    decreases |rest|
  {
    if |rest| > 0 {
      FindTimesCovers(typed, rest[0]);
      var next := if FindTimes(typed, rest[0]) == |typed| then Listing(typed, known) else tip;
      FileTipLoopHits(typed, rest[1..], known, next);
      if exists x :: x in rest && Covers(typed, x) {
        if !Covers(typed, rest[0]) {
          var x :| x in rest && Covers(typed, x);
          assert x in rest[1..];
        }
      }
      if forall x :: x in rest ==> !Covers(typed, x) {
        assert !Covers(typed, rest[0]);
      }
    }
  }

  /** `s` repeated `k` times. */
  function Repeat(s: string, k: nat): string {
    if k == 0 then "" else s + Repeat(s, k - 1)
  }

  /** How many of the names the typed text covers. */
  function CoverCount(typed: string, names: seq<string>): nat {
    if |names| == 0 then 0
    else (if Covers(typed, names[0]) then 1 else 0) + CoverCount(typed, names[1..])
  }

  /** The colour block of the listener AS WRITTEN: `str` is not reset for
      each colour type and `tip.setText(str)` runs inside the outer loop,
      so the list is appended once per covered colour type. */
  function ColorLoopAsWritten(color: string, rest: seq<string>, modes: seq<string>, str: string, tip: string): string
    decreases |rest|
  {
    if |rest| == 0 then tip
    else
      var str' := if FindTimes(color, rest[0]) == |color| then str + Listing(color, modes) else str;
      ColorLoopAsWritten(color, rest[1..], modes, str', str')
  }

  function ColorTipAsWritten(text: string, modes: seq<string>, tip: string): (r: string)
    ensures |Split(text)| != 2 || |modes| == 0 ==> r == tip
    ensures |Split(text)| == 2 && |modes| >= 1 ==>
              r == Split(text)[0] + " " + Repeat(Listing(Split(text)[1], modes), CoverCount(Split(text)[1], modes))
  {
    var words := Split(text);
    if |words| != 2 then tip
    else
      var r := ColorLoopAsWritten(words[1], modes, modes, words[0] + " ", tip);
      assert |modes| >= 1 ==> r == words[0] + " " + Repeat(Listing(words[1], modes), CoverCount(words[1], modes)) by {
        if |modes| >= 1 {
          ColorLoopRepeats(words[1], modes, modes, words[0] + " ", tip);
        }
      }
      r
  }

  /** As written, the tip for "<name> <word>" holds the covered colour
      types' list once per covered colour type. */
  lemma {:induction false} ColorLoopRepeats(color: string, rest: seq<string>, modes: seq<string>, str: string, tip: string)
    requires |rest| >= 1
    ensures ColorLoopAsWritten(color, rest, modes, str, tip)
              == str + Repeat(Listing(color, modes), CoverCount(color, rest))
    decreases |rest|
  {
    FindTimesCovers(color, rest[0]);
    var L := Listing(color, modes);
    var str' := if FindTimes(color, rest[0]) == |color| then str + L else str;
    if |rest| == 1 {
      assert CoverCount(color, rest[1..]) == 0;
    } else {
      ColorLoopRepeats(color, rest[1..], modes, str', str');
      if Covers(color, rest[0]) {
        RepeatSucc(L, CoverCount(color, rest[1..]));
      }
    }
  }

  lemma {:induction false} RepeatSucc(s: string, k: nat)
    ensures Repeat(s, k + 1) == Repeat(s, k) + s
    decreases k
  {
    if k > 0 {
      RepeatSucc(s, k - 1);
    }
  }

  /** The colour block as evidently intended: the name, a space, and the
      covered colour types one per line, each once. */
  function ColorTip(text: string, modes: seq<string>, tip: string): (r: string)
    ensures |Split(text)| != 2 ==> r == tip
    ensures |Split(text)| == 2 ==> r == Split(text)[0] + " " + Lines(Matches(Split(text)[1], modes))
  {
    var words := Split(text);
    if |words| != 2 then tip
    else
      assert words[1] != "";
      ListingIsLines(words[1], modes);
      words[0] + " " + Listing(words[1], modes)
  }

  /** The two colour blocks agree whenever at most one colour type is
      covered, and as written the list appears `k` times for `k` covered
      colour types. */
  lemma ColorTipAgreement(text: string, modes: seq<string>, tip: string)
    requires |modes| >= 1 && |Split(text)| == 2
    ensures ColorTipAsWritten(text, modes, tip)
              == Split(text)[0] + " " + Repeat(Listing(Split(text)[1], modes), CoverCount(Split(text)[1], modes))
    ensures CoverCount(Split(text)[1], modes) <= 1 ==> ColorTipAsWritten(text, modes, tip) == ColorTip(text, modes, tip)
  {
    var words := Split(text);
    var L := Listing(words[1], modes);
    if CoverCount(words[1], modes) == 0 {
      CoverCountZero(words[1], modes);
      ListingIsLines(words[1], modes);
      assert Matches(words[1], modes) == [];
    } else if CoverCount(words[1], modes) == 1 {
      assert Repeat(L, 1) == L + Repeat(L, 0);
    }
  }

  lemma {:induction false} CoverCountZero(typed: string, names: seq<string>)
    requires CoverCount(typed, names) == 0
    ensures Matches(typed, names) == []
    decreases |names|
  {
    if |names| > 0 {
      CoverCountZero(typed, names[1..]);
    }
  }

  /** "Energy R" splits into the name and the typed letter. */
  lemma SplitEnergyR(text: string)
    requires text == "Energy R"
    ensures Split(text) == ["Energy", "R"]
  {
    PiecesAfterWord("Energy", "R");
    PiecesOfWord("R");
    assert text == "Energy" + " " + "R";
  }

  /** The letter R occurs in REGULAR and RANDOM but not in UNIT, so the
      list for it has two lines. */
  lemma ListingR(typed: string, modes: seq<string>)
    requires typed == "R" && modes == ColorTypes
    ensures Matches(typed, modes) == ["REGULAR", "RANDOM"]
    ensures CoverCount(typed, modes) == 2
    ensures Listing(typed, modes) == "REGULAR" + "\n" + "RANDOM" + "\n"
  {
    var a, b, c := modes[0], modes[1], modes[2];
    assert Covers(typed, a) by { assert a[0] == 'R'; }
    assert Covers(typed, b) by { assert b[0] == 'R'; }
    assert !Covers(typed, c) by { assert typed[0] !in c; }
    assert modes == [a, b, c];
    TwoOfThree(typed, a, b, c);
    ListingIsLines(typed, modes);
    TwoLines(a, b);
  }

  lemma TwoOfThree(typed: string, a: string, b: string, c: string)
    requires Covers(typed, a) && Covers(typed, b) && !Covers(typed, c)
    ensures Matches(typed, [a, b, c]) == [a, b] && CoverCount(typed, [a, b, c]) == 2
  {
    var ms := [a, b, c];
    assert ms[1..] == [b, c] && [b, c][1..] == [c] && [c][1..] == [];
    assert Matches(typed, [c]) == [] && CoverCount(typed, [c]) == 0;
    assert Matches(typed, [b, c]) == [b] && CoverCount(typed, [b, c]) == 1;
  }

  lemma TwoLines(a: string, b: string)
    ensures Lines([a, b]) == a + "\n" + b + "\n"
  {
    assert [a, b][1..] == [b] && [b][1..] == [];
    assert Lines([b]) == b + "\n" + "";
    assert b + "\n" + "" == b + "\n";
  }

  /** "Energy R" covers both REGULAR and RANDOM: as written the tip lists
      them twice, the intended tip once. */
  lemma ColorTipRepeatsExample(text: string, modes: seq<string>, tip: string)
    requires text == "Energy R" && modes == ColorTypes
    ensures var list := "REGULAR" + "\n" + "RANDOM" + "\n";
            ColorTipAsWritten(text, modes, tip) == "Energy" + " " + (list + list)
    ensures ColorTip(text, modes, tip) == "Energy" + " " + ("REGULAR" + "\n" + "RANDOM" + "\n")
  {
    SplitEnergyR(text);
    var typed := Split(text)[1];
    ListingR(typed, modes);
    var L := Listing(typed, modes);
    ColorTipAgreement(text, modes, tip);
    assert Repeat(L, 2) == L + L by {
      assert Repeat(L, 1) == L + "" == L;
    }
  }

  /** The whole listener, with the colour block as intended: the
      file-name suggestions, then the colour-type suggestions for a
      "<name> <word>" text, then the default message for an empty text. */
  function OnTextChanged(text: string, known: seq<string>, modes: seq<string>, tip: string): (r: string)
    ensures text == "" ==> r == DefaultTip
    ensures (text != "" && |Split(text)| == 2)
              ==> r == Split(text)[0] + " " + Lines(Matches(Split(text)[1], modes))
    ensures (text != "" && |Split(text)| != 2 && (exists x :: x in known && Covers(text, x)))
              ==> r == Lines(Matches(text, known))
    ensures (text != "" && |Split(text)| != 2 && (forall x :: x in known ==> !Covers(text, x)))
              ==> r == tip
  {
    var afterFiles := FileTip(text, known, tip);
    var afterColors := ColorTip(text, modes, afterFiles);
    if text == "" then DefaultTip else afterColors
  }

  /** The text the field is reset to: everything before the first ".txt". */
  function StripTxt(text: string): (r: string)
    ensures r <= text
    ensures IndexOf(r, Suffix) == -1
    ensures IndexOf(text, Suffix) == -1 ==> r == text
    ensures r != text ==> OccursAt(text, Suffix, |r|)
  {
    var i := IndexOf(text, Suffix);
    if i == -1 then text
    else
      var r := text[..i];
      forall j ensures !OccursAt(r, Suffix, j) {
        if OccursAt(r, Suffix, j) {
          assert text[j..j + |Suffix|] == r[j..j + |Suffix|];
          assert OccursAt(text, Suffix, j);
        }
      }
      r
  }

  /** Stripping twice is stripping once. */
  lemma StripTxtIdempotent(text: string)
    ensures StripTxt(StripTxt(text)) == StripTxt(text)
  {
  }

  // ---------------------------------------------------------------------
  // The Enter handler

  datatype Action =
    | Show(file: string)                    // showSankeyDiagrams(file)
    | ShowStyled(file: string, word: string) // showSankeyDiagrams(file, colorType)
    | Nothing                               // a known name followed by two or more words
    | Rejected                              // "Filename does not exist!" and the fade
    | Crashed                               // type[0] of an empty split array

  datatype Outcome = Outcome(action: Action, errorTime: int, alert: bool)

  /** `errorTimer` then `errorAlert`: the counter steps with int wrap-around
      and the warning shows when it is a multiple of three. */
  function Fail(errorTime: int): (o: Outcome)
    ensures o.action == Rejected && InInt32(o.errorTime)
    ensures o.errorTime == Wrap32(errorTime + 1)
    ensures MinInt <= errorTime < MaxInt ==> o.errorTime == errorTime + 1
    ensures errorTime == MaxInt ==> o.errorTime == MinInt
    ensures o.alert <==> o.errorTime % 3 == 0
  {
    var e := Wrap32(errorTime + 1);
    var q, r := JavaDiv(e, 3), JavaRem(e, 3);
    if r >= 0 then
      ModUnique(e, 3, q, r);
      Outcome(Rejected, e, r == 0)
    else
      ModUnique(e, 3, q - 1, r + 3);
      Outcome(Rejected, e, r == 0)
  }

  /** What a press does to the counter: a rejection steps it through
      `errorTimer`, any other action leaves it and raises no warning. */
  function Count(a: Action, errorTime: int): (o: Outcome)
    ensures o.action == a
    ensures a != Rejected ==> o.errorTime == errorTime && !o.alert
    ensures InInt32(errorTime) ==> o.errorTime == Wrap32(errorTime + (if a == Rejected then 1 else 0))
  {
    if a == Rejected then Fail(errorTime) else Outcome(a, errorTime, false)
  }

  /** The handler's choice AS WRITTEN: a lone known name opens the whole
      text, trailing spaces included. */
  function ClassifyAsWritten(text: string, known: set<string>): (a: Action)
    ensures a == Crashed <==> Split(text) == []
    ensures a == Rejected <==> IsRejected(text, known)
    ensures a.Show? <==> |Split(text)| == 1 && Split(text)[0] in known
    ensures a.Show? ==> a.file == text
    ensures a.ShowStyled? <==> |Split(text)| == 2 && Split(text)[0] in known
    ensures a.ShowStyled? ==> Split(text) == [a.file, a.word]
    ensures a.Nothing? <==> |Split(text)| >= 3 && Split(text)[0] in known
  {
    var words := Split(text);
    if |words| == 0 then Crashed
    else if words[0] in known then
      if |words| == 1 then Show(text)
      else if |words| == 2 then ShowStyled(words[0], words[1])
      else Nothing
    else Rejected
  }

  /** The Enter handler as written. */
  function DispatchAsWritten(text: string, known: set<string>, errorTime: int): (o: Outcome)
    ensures |Split(text)| == 1 && Split(text)[0] in known ==> o.action == Show(text)
    ensures o.action == Rejected <==> IsRejected(text, known)
  {
    Count(ClassifyAsWritten(text, known), errorTime)
  }

  /** A text with a failing first word. */
  predicate IsRejected(text: string, known: set<string>) {
    var words := Split(text);
    |words| >= 1 && words[0] !in known
  }

  /** The handler's choice as evidently intended: a lone known name opens
      that name. */
  function Classify(text: string, known: set<string>): (a: Action)
    ensures a == Crashed <==> Split(text) == []
    ensures a == Rejected <==> IsRejected(text, known)
    ensures a.Show? <==> |Split(text)| == 1 && Split(text)[0] in known
    ensures a.Show? ==> Split(text) == [a.file]
    ensures a.ShowStyled? <==> |Split(text)| == 2 && Split(text)[0] in known
    ensures a.ShowStyled? ==> Split(text) == [a.file, a.word]
    ensures a.Nothing? <==> |Split(text)| >= 3 && Split(text)[0] in known
    ensures a.Show? || a.ShowStyled? ==> a.file in known
  {
    var words := Split(text);
    if |words| == 0 then Crashed
    else if words[0] in known then
      if |words| == 1 then Show(words[0])
      else if |words| == 2 then ShowStyled(words[0], words[1])
      else Nothing
    else Rejected
  }

  /** The Enter handler as evidently intended: the chosen action, and
      the counter stepped, wrapped to an int, on a rejection only. */
  function Dispatch(text: string, known: set<string>, errorTime: int): (o: Outcome)
    ensures o.action == Classify(text, known)
    ensures InInt32(errorTime) ==> InInt32(o.errorTime)
    ensures o.action != Rejected ==> o.errorTime == errorTime && !o.alert
    ensures InInt32(errorTime) ==> o.errorTime == Wrap32(errorTime + (if o.action == Rejected then 1 else 0))
    ensures o.action == Rejected && MinInt <= errorTime < MaxInt ==> o.errorTime == errorTime + 1
    ensures o.action == Rejected ==> (o.alert <==> o.errorTime % 3 == 0)
  {
    Count(Classify(text, known), errorTime)
  }

  /** Both handlers agree unless the text ends in a space. */
  lemma DispatchAgrees(text: string, known: set<string>, errorTime: int)
    requires text == "" || text[|text| - 1] != ' '
    ensures ClassifyAsWritten(text, known) == Classify(text, known)
    ensures DispatchAsWritten(text, known, errorTime) == Dispatch(text, known, errorTime)
  {
    var words := Split(text);
    if text != "" && |words| == 1 {
      assert words == Pieces(text);
      PiecesOfWord(text);
    }
  }

  /** What `showSankeyDiagrams` works on. */
  datatype Diagram = Diagram(data: Data, colorType: int)

  /** `showSankeyDiagrams(name)` or `showSankeyDiagrams(name, word)`: the
      file "<name>.txt" must exist, its dataset must load, and the word
      picks the colour type, REGULAR when absent or unrecognised. */
  function OpenDiagram(files: map<string, seq<string>>, name: string, word: Option<string>): (r: Result<Diagram>)
    ensures name + Suffix !in files ==> r == Err(FileMissing)
    ensures name + Suffix in files ==> (r.Ok? <==> Load(files[name + Suffix]).Ok?)
    ensures r.Ok? ==> name + Suffix in files && Load(files[name + Suffix]) == Ok(r.value.data)
    ensures r.Ok? && word.None? ==> r.value.colorType == ModeCode(Regular)
    ensures r.Ok? && word.Some? ==> (forall m :: word.value == ModeName(m) ==> r.value.colorType == ModeCode(m))
    ensures r.Ok? && word.Some? && (forall m :: word.value != ModeName(m)) ==> r.value.colorType == ModeCode(Regular)
  {
    var full := name + Suffix;
    if full !in files then Err(FileMissing)
    else
      match Load(files[full])
      case Err(f) => Err(f)
      case Ok(d) =>
        if word.None? then Ok(Diagram(d, DefaultColorType))
        else
          ColorTypeOfModes(word.value);
          Ok(Diagram(d, ColorTypeOf(word.value)))
  }

  /** The file a dispatched action opens, if any. */
  function Opens(a: Action): Option<(string, Option<string>)> {
    match a
    case Show(f) => Some((f, None))
    case ShowStyled(f, w) => Some((f, Some(w)))
    case _ => None
  }

  /** With the intended handler, a name accepted against the directory
      listing always finds its file. */
  lemma DispatchFindsFile(listing: seq<string>, files: map<string, seq<string>>, text: string, errorTime: int)
    requires forall f :: f in listing ==> f in files
    ensures var o := Dispatch(text, FileKeys(listing), errorTime);
            Opens(o.action).Some? ==> Opens(o.action).value.0 + Suffix in files
  {
    var a := Classify(text, FileKeys(listing));
    if a.Show? || a.ShowStyled? {
      assert a.file + Suffix in listing;
    }
  }

  /** "Energy " passes the known-name check, yet as written the handler
      asks for "Energy .txt", which does not exist, and the program exits;
      the intended handler opens "Energy.txt". */
  lemma TrailingSpaceExample(text: string, listing: seq<string>, files: map<string, seq<string>>, errorTime: int)
    requires text == "Energy " && listing == ["Energy.txt"] && files.Keys == {"Energy.txt"}
    ensures DispatchAsWritten(text, FileKeys(listing), errorTime).action == Show(text)
    ensures OpenDiagram(files, text, None) == Err(FileMissing)
    ensures Dispatch(text, FileKeys(listing), errorTime).action == Show("Energy")
    ensures "Energy" + Suffix in files
  {
    SplitTrailingSpace(text);
    EnergyKnown(listing);
    assert text + Suffix !in files by {
      assert |text + Suffix| != |listing[0]|;
    }
  }

  /** "Energy " splits into the one word "Energy". */
  lemma SplitTrailingSpace(text: string)
    requires text == "Energy "
    ensures Split(text) == ["Energy"]
  {
    PiecesAfterWord("Energy", "");
    assert text == "Energy" + " " + "";
    assert Pieces("") == [""];
    assert Pieces(text) == ["Energy", ""];
    assert DropTrailingEmpty(["Energy", ""]) == DropTrailingEmpty(["Energy"]) == ["Energy"] by {
      assert ["Energy", ""][..1] == ["Energy"];
    }
  }

  /** A directory holding "Energy.txt" knows the name "Energy". */
  lemma EnergyKnown(listing: seq<string>)
    requires listing == ["Energy.txt"]
    ensures "Energy" in FileKeys(listing)
  {
    assert "Energy" + Suffix == listing[0];
  }

  // ---------------------------------------------------------------------
  // A sequence of presses

  /** How many of the actions are rejections. */
  function Rejections(acts: seq<Action>): (n: nat)
    ensures n <= |acts|
  {
    if |acts| == 0 then 0
    else Rejections(acts[..|acts| - 1]) + (if acts[|acts| - 1] == Rejected then 1 else 0)
  }

  /** Counting one more press. */
  lemma RejectionsSnoc(acts: seq<Action>, i: nat)
    requires i < |acts|
    ensures Rejections(acts[..i + 1]) == Rejections(acts[..i]) + (if acts[i] == Rejected then 1 else 0)
  {
    assert acts[..i + 1][..i] == acts[..i];
  }

  /** Counting the first press apart from the rest. */
  lemma {:induction false} RejectionsCons(acts: seq<Action>, p: nat)
    requires p < |acts|
    ensures Rejections(acts[..p + 1]) == (if acts[0] == Rejected then 1 else 0) + Rejections(acts[1..][..p])
    decreases p
  {
    RejectionsSnoc(acts, p);
    if p > 0 {
      RejectionsCons(acts, p - 1);
      RejectionsSnoc(acts[1..], p - 1);
      assert acts[1..][p - 1] == acts[p];
    } else {
      assert acts[..0] == [] && acts[1..][..0] == [];
    }
  }

  /** A prefix holds at most the rejections of the whole. */
  lemma {:induction false} RejectionsPrefix(acts: seq<Action>, n: nat)
    requires n <= |acts|
    ensures Rejections(acts[..n]) <= Rejections(acts)
    decreases |acts|
  {
    if n < |acts| {
      var init := acts[..|acts| - 1];
      RejectionsPrefix(init, n);
      assert init[..n] == acts[..n];
    } else {
      assert acts[..n] == acts;
    }
  }

  /** Successive presses of Enter, given the action each one picked, the
      field `errorTime` carried from one press to the next. */
  function Replay(acts: seq<Action>, errorTime: int): (os: seq<Outcome>)
    ensures |os| == |acts|
    decreases |acts|
  {
    if |acts| == 0 then []
    else
      var o := Count(acts[0], errorTime);
      [o] + Replay(acts[1..], o.errorTime)
  }

  /** Each press of a replay sees the start value plus the rejections
      before it, wrapped to an int. */
  lemma ReplayAt(acts: seq<Action>, e0: int, p: nat)
    requires InInt32(e0) && p < |acts|
    ensures Replay(acts, e0)[p] == Count(acts[p], Wrap32(e0 + Rejections(acts[..p])))
  {
    ReplayBefore(acts, e0, p);
    BeforeIs(acts, e0, p);
  }

  /** The counter a replay leaves before press `p`, stepped press by press. */
  function Before(acts: seq<Action>, e0: int, p: nat): int
    requires p <= |acts|
    decreases p
  {
    if p == 0 then e0 else Before(acts[1..], Count(acts[0], e0).errorTime, p - 1)
  }

  /** Press `p` of a replay counts action `p` against the counter left
      before it. */
  lemma {:induction false} ReplayBefore(acts: seq<Action>, e0: int, p: nat)
    requires p < |acts|
    ensures Replay(acts, e0)[p] == Count(acts[p], Before(acts, e0, p))
    decreases p
  {
    if p > 0 {
      var e1 := Count(acts[0], e0).errorTime;
      ReplayBefore(acts[1..], e1, p - 1);
      ReplayTail(acts, e0, p);
      assert acts[1..][p - 1] == acts[p];
    }
  }

  /** Stepped press by press, the counter is the start value plus the
      rejections so far, wrapped to an int. */
  lemma {:induction false} BeforeIs(acts: seq<Action>, e0: int, p: nat)
    requires InInt32(e0) && p <= |acts|
    ensures Before(acts, e0, p) == Wrap32(e0 + Rejections(acts[..p]))
    decreases p
  {
    if p == 0 {
      assert acts[..0] == [];
    } else {
      var e1 := Count(acts[0], e0).errorTime;
      BeforeIs(acts[1..], e1, p - 1);
      CounterAfterFirst(acts, e0, e1, p);
    }
  }

  /** Press `p` of a replay is press `p - 1` of the replay from the second press. */
  lemma ReplayTail(acts: seq<Action>, e0: int, p: nat)
    requires 0 < p < |acts|
    ensures Replay(acts, e0)[p] == Replay(acts[1..], Count(acts[0], e0).errorTime)[p - 1]
  {
  }

  /** The counter press `p` sees, reckoned from the second press on. */
  lemma CounterAfterFirst(acts: seq<Action>, e0: int, e1: int, p: nat)
    requires 0 < p <= |acts| && e1 == Wrap32(e0 + (if acts[0] == Rejected then 1 else 0))
    ensures Wrap32(e1 + Rejections(acts[1..][..p - 1])) == Wrap32(e0 + Rejections(acts[..p]))
  {
    var b := if acts[0] == Rejected then 1 else 0;
    RejectionsCons(acts, p - 1);
    WrapStep(e0, b, Rejections(acts[1..][..p - 1]), Rejections(acts[..p]));
  }

  /** Wrapping after the first step and again after the rest is wrapping
      the whole sum once. */
  lemma WrapStep(e0: int, b: int, rest: int, total: int)
    requires total == b + rest
    ensures Wrap32(Wrap32(e0 + b) + rest) == Wrap32(e0 + total)
  {
    WrapAdd(e0 + b, rest);
    assert e0 + b + rest == e0 + total;
  }

  /** While the counter does not overflow, after press `p` it holds the
      start value plus the rejections so far, and the warning shows on
      exactly every third rejection. */
  lemma AlertEveryThird(acts: seq<Action>, e0: int, p: nat)
    requires 0 <= e0 && e0 + Rejections(acts) <= MaxInt && p < |acts|
    ensures Replay(acts, e0)[p].errorTime == e0 + Rejections(acts[..p + 1])
    ensures Replay(acts, e0)[p].alert <==> acts[p] == Rejected && (e0 + Rejections(acts[..p + 1])) % 3 == 0
  {
    ReplayAt(acts, e0, p);
    RejectionsSnoc(acts, p);
    RejectionsPrefix(acts, p + 1);
    var before := e0 + Rejections(acts[..p]);
    assert Wrap32(before) == before;
    if acts[p] == Rejected {
      assert Replay(acts, e0)[p] == Fail(before);
    } else {
      assert Replay(acts, e0)[p] == Outcome(acts[p], before, false);
    }
  }

  /** The bookkeeping of `errorTimer` and `errorAlert` over a run of
      presses: the counter ends at the start value plus the rejections,
      wrapped to an int, and while it does not overflow the warning has
      shown once per multiple of three passed. */
  method Session(acts: seq<Action>, e0: int) returns (errorTime: int, warnings: nat)
    requires InInt32(e0)
    ensures errorTime == Wrap32(e0 + Rejections(acts))
    ensures 0 <= e0 && e0 + Rejections(acts) <= MaxInt ==> warnings == (e0 + Rejections(acts)) / 3 - e0 / 3
  {
    errorTime, warnings := e0, 0;
    var i := 0;
    while i < |acts|
      invariant 0 <= i <= |acts|
      invariant errorTime == Wrap32(e0 + Rejections(acts[..i]))
      invariant 0 <= e0 && e0 + Rejections(acts[..i]) <= MaxInt ==> warnings == (e0 + Rejections(acts[..i])) / 3 - e0 / 3
    {
      var o := Count(acts[i], errorTime);
      RejectionsSnoc(acts, i);
      WrapAdd(e0 + Rejections(acts[..i]), if acts[i] == Rejected then 1 else 0);
      if o.alert {
        warnings := warnings + 1;
      }
      errorTime := o.errorTime;
      i := i + 1;
    }
    assert acts[..i] == acts;
  }
}
